=== FILE: README.md ===
# Marching cubes sweep kernel, in Dafny

This project models the cube-sweep kernel of the `isosurface` crate's marching
cubes extractor (`src/marching_cubes.rs`). The extractor turns a distance field
over the unit cube into a triangle mesh. The model covers each of its steps:

- It keeps two z-layers of size×size samples, stored row-major. Layer 0 is
  filled once at z = 0. Layer 1 is refilled at the start of every z step. The
  two layers swap roles after the step.
- For each cube origin it gathers the 8 corner positions and values.
- It classifies the cube as an 8-bit index. Bit i is set iff corner i's value
  is `<= 0`.
- It walks the cube's row of the 256-row triangle table. The walk stops at the
  first slot whose leading entry is a negative sentinel, and at most 5 triangles
  are read.
- For every edge id of a triangle it asks the vertex-index cache. An answer
  above 0 is pushed as it is. Any other answer allocates the next vertex index:
  the index is `put` into the cache, pushed, and one vertex is emitted. The
  vertex sits at the interpolated zero crossing on the edge.
- It calls `advance_cell`, `advance_row` and `advance_layer` after each cube,
  each row and each z step.
- `extract` and `extract_with_normals` wrap the same sweep. The first appends 3
  reals per vertex. The second appends 6: the position, then the source's normal
  at that position.

Modules, one per component:

| file | module | component |
|---|---|---|
| `tables.dfy` | `MarchingCubesTables` | shape of the corner, edge and triangle tables; the triangle count of a row |
| `interpolation.dfy` | `Interpolation` | `get_offset`, `interpolate`, and the segment lemmas |
| `classify.dfy` | `Classify` | the cube-index bitmask |
| `layers.dfy` | `Layers` | row-major layers, the layer fill, and in-bounds corner reads |
| `index_cache.dfy` | `IndexCache` | the cache call protocol as a log of calls |
| `cube.dfy` | `Cube` | corner gather, edge visit (hit or miss), triangle walk, sweep bookkeeping |
| `marching_cubes.dfy` | `MarchingCubes` | the extractor value, the x/y/z loops, `extract`, `extract_with_normals` |

How the collaborators that are not shown are modelled:

- The field (`Source::sample`) is a function value `(real, real, real) -> real`
  passed in. The normal (`HermiteSource::sample_normal`) is a function value
  returning a triple.
- The tables are a `Tables` value. `Tables.Valid()` states only their shape:
  - 8 corner offsets, each in {0,1};
  - 12 edges whose endpoints are below 8;
  - 256 rows of 16 entries, each entry below 12;
  - in every triangle whose first entry is not negative, all three entries are
    not negative. The source reads the other two entries with an unchecked
    `as usize` cast, so it relies on this.
- The `IndexCache` storage and rotation are not part of this model. The model
  records every cache call in a log (`IndexCache.Call`). The answer to `get` is
  any function of that log and the key (`IndexCache.Lookup`), so no rotation
  strategy is assumed. Results about honest caches are stated as implications.
  An honest cache answers 0 or an index that an earlier `put` recorded.
  `IndexCache.Recall` is one such cache: a store that never forgets.
- The extractor is a value, `MarchingCubes.MarchingCubes`. Each extraction
  returns the new layers, the grown vertex and index buffers, and the log of
  cache calls.

Two behaviours of the code are kept as written:

- **Index 0 is never reused.** The hit test is `cached_index > 0`. Vertex index
  0 is therefore never a hit, and its edge emits a fresh vertex each time it is
  asked for. `Cube.IndexZeroIsReemitted` exhibits this.
- **The z loop runs `size` times.** The x and y loops run `size - 1` times. The
  last pass therefore samples layer 1 at z = size/(size-1), outside the unit
  cube, and marches cubes whose upper corners sit there.
  `MarchingCubes.LastSlabBeyondUnitCube` and the final-layer postconditions of
  `MarchingCubes.ExtractImpl` state this.

As a consequence of the second point, cube origins reach z = size−1, while
they reach only size−2 along x and y, and the field is sampled at size+1
slices: layer 0 once, then layer 1 on each of the `size` z steps. "No cached
vertex" is the answer 0 from the cache; there is no separate absent signal.

The three nested sweep loops are written as recursive methods, one per loop
(`SweepLayers` for z, `SweepSlab` for y, `SweepRow` for x), over sequences
rather than the two mutable layer buffers; the swap of the layers becomes an
exchange of arguments. Counts the loops produce are accumulated step by step
(`MarchingCubes.Times`, `Cube.Triples`) and related to the closed forms
`n·m` and "a multiple of 3" by separate lemmas.

Next to the methods stands a reference sweep, written as pure functions on the
field alone. `MarchingCubes.CubeAt` is the cube at an origin as read straight from
the field: its corner positions and the field's values there.
`MarchingCubes.CubeEdges` lists the edge ids of the triangles in the
triangle-table row of that cube's index. `MarchingCubes.MarchedCube` walks those
edge ids in order with `Cube.VisitEdges`, which applies the single-edge visit
once per edge id. `SweptCell`, `SweptRow`, `SweptSlab`, `SweptLayer` and
`SweptLayers` put the cubes together in the source's loop order:
- z outermost, then y, then x;
- `advance_cell` after each cube, `advance_row` after each row and
  `advance_layer` after each z step.
`SweptGrid` is the whole extraction. Each sweep method is stated to return
exactly its reference's state: counter, vertices, indices and call log.

Vertex indices count from 0 on every call, even when the vertex buffer passed
in already holds vertices. The postconditions state the index bounds relative
to the vertices emitted by this call.

## Model

| member | source | states |
|---|---|---|
| `Interpolation.GetOffset` | src/marching_cubes.rs:25-28 | on a zero delta the offset is exactly 0.5; otherwise offset × (b − a) = −a, so the division never has a zero divisor |
| `Interpolation.OffsetIsRoot` | src/marching_cubes.rs:25-32 | when a ≠ b, interpolating the end values by the offset gives exactly 0: the offset is the linear root |
| `Interpolation.Interpolate` | src/marching_cubes.rs:30-32 | `a·(1−t) + b·t` is the point a fraction t of the way from a to b: the result minus a is (b − a)·t, and equal ends give that end for every t; `InterpolateEndpoints` and `InterpolateBetween` state its endpoint and in-between behaviour |
| `Interpolation.InterpolateEndpoints` | src/marching_cubes.rs:30-32 | interpolation by 0 gives the first end and by 1 the second |
| `Interpolation.OffsetInUnitInterval` | src/marching_cubes.rs:25-28 | when the end values straddle zero (a ≤ 0 < b or b ≤ 0 < a), the offset lies in [0, 1] |
| `Interpolation.InterpolateBetween` | src/marching_cubes.rs:30-32 | interpolation by a fraction in [0, 1] stays between the two ends |
| `Interpolation.CrossingOnSegment` | src/marching_cubes.rs:152-157 | on a straddling edge, the three interpolated coordinates lie in the box spanned by the two corners |
| `Cube.Crossing` | src/marching_cubes.rs:152-157 | the vertex passed to the emitter for edge (u, v) is, on each axis, the offset's fraction of the way from corner u to corner v, and the edge's midpoint when the two corner values are equal; `CrossingOnEdge` states where it lies when the values straddle zero |
| `Cube.Emit` | src/marching_cubes.rs:56-81 | the emitter appends 3 reals (positions only) or 6 (with normals); the first three are the vertex position, and with normals the last three are the source's normal at that position |
| `Cube.CrossingOnEdge` | src/marching_cubes.rs:145-157 | the vertex emitted for an edge joining corners u and v with straddling values lies between the two corner positions, at the root of the interpolated value |
| `Classify.IndexUpTo` | src/marching_cubes.rs:127-132 | after the first n corners, bit k of the partial index is set iff k < n and value k ≤ 0 |
| `Classify.CubeIndex` | src/marching_cubes.rs:127-132 | the loop's result is `IndexOf` the values; bit i of the cube index is set iff value i ≤ 0; all corners outside gives 0, all inside gives 255; the index fits in 8 bits |
| `Layers.CornerReadInBounds` | src/marching_cubes.rs:116-124 | for size ≥ 2, x, y ≤ size−2 and offsets in {0,1}, the read position (y+dy)·size + x+dx is below size·size |
| `Layers.FillRow` | src/marching_cubes.rs:108-113 | filling row y writes the field at (x/(size−1), y/(size−1), z) to each position y·size+x of that row and leaves every other position of the layer unchanged |
| `Layers.FillLayer` | src/marching_cubes.rs:106-113 | after the row-by-row fill, every position y·size+x of the layer holds the field at (x/(size−1), y/(size−1), z) and nothing else is left over |
| `MarchingCubesTables.TriangleCount` | src/marching_cubes.rs:134-138 | the number of triangles a row lists is at most 5, every slot before it has a non-negative leading entry, and the slot at it (if below 5) has a negative one |
| `Cube.GatherCorners` | src/marching_cubes.rs:118-125 | corner i is at (origin + offset_i)/(size−1); when the layers hold the slices at z and z+1, every corner value equals the field at that corner's position |
| `Cube.VisitEdge` | src/marching_cubes.rs:139-158 | one get per edge id; an answer above 0 is pushed unchanged with no counter change and no emission; an answer of 0 pushes the current counter, records it with one put, advances the counter by exactly 1 and emits one vertex at the edge crossing |
| `Cube.VisitEdgeAsks` | src/marching_cubes.rs:139-151 | the only edge id a visit asks the cache about is its own, once, whether the answer is a hit or a miss |
| `Cube.VisitEdgeKeepsBookkeeping` | src/marching_cubes.rs:139-158 | visiting an edge keeps the sweep invariant: the puts record 0, 1, …, counter−1 in order; the vertex buffer holds one group per index; buffers only grow; with an honest cache no pushed index reaches the counter |
| `Cube.BookkeptAtStart` | src/marching_cubes.rs:101-102 | with the counter at 0 and a fresh cache, the sweep invariant holds before the first cube |
| `Cube.BookkeptMeans` | src/marching_cubes.rs:144-158 | under the sweep invariant, the number of emitted vertices equals the number of put calls, which equals the counter |
| `Cube.VisitTriangle` | src/marching_cubes.rs:139-159 | the result is the reference walk (`Cube.VisitEdges`) over row entries 3i, 3i+1 and 3i+2, in that order, on the cube passed in. So each pushed index and each emitted vertex is the one `VisitEdge` gives for that entry on that cube. It asks the cache about exactly those three entries, pushes one index for each, makes only get/put calls keyed by the cube's origin, and keeps the sweep invariant (`Cube.Walked`) |
| `Cube.MarchCube` | src/marching_cubes.rs:134-160 | the result is the reference walk (`Cube.VisitEdges`) over the first 3 × TriangleCount(row) entries of the cube-index row, in order, on the cube passed in: its corner positions and values fix every emitted vertex. It asks the cache about exactly those entries and pushes one index for each (at most 15), so a buffer of whole triangles stays whole. The vertex buffer grows by one group per counter step, and the sweep invariant is kept |
| `Cube.VisitEdgesAppend` | src/marching_cubes.rs:134-159 | walking two lists of edge ids one after the other is walking their concatenation: the per-triangle walks compose into the walk of the row |
| `Cube.VisitOneEdge` | src/marching_cubes.rs:139-158 | walking a one-entry list is visiting that edge once |
| `Cube.IndexZeroIsReemitted` | src/marching_cubes.rs:141-150 | with a cache that remembers every put and the counter at 0, visiting a not-yet-cached edge twice pushes [0, 1], advances the counter to 2 and emits two vertices: index 0 is never a hit |
| `Cube.LaterIndexIsReused` | src/marching_cubes.rs:141-143 | with the same cache and the counter above 0, visiting a not-yet-cached edge twice pushes the same index twice, advances the counter once and emits no second vertex |
| `MarchingCubes.UniformCubeEmitsNothing` | src/marching_cubes.rs:127-138 | when the table's rows 0 and 255 start with a sentinel, marching a cube whose eight corner values are all above 0, or all at most 0, pushes no index and asks the cache about no edge |
| `MarchingCubes.New` | src/marching_cubes.rs:39-44 | a new extractor has two zero-filled layers of exactly size·size samples, the length every later read relies on |
| `MarchingCubes.MarchAt` | src/marching_cubes.rs:118-160 | with the layers holding the slices at z and z+1, the result equals `MarchedCube` for origin (x, y, z): the walk, on the cube read from the field at that origin, over the edge ids of the row of that cube's own index. It also states the cube index, as `MarchedAt`: bit i is set iff the field at corner i is ≤ 0, 3 × TriangleCount indices are pushed, and the row's listed edge ids are asked in order. At most 15 indices are pushed, whole triangles are kept, every get/put call is keyed by (x, y), and the sweep invariant is kept |
| `MarchingCubes.GatheredCube` | src/marching_cubes.rs:118-125 | corners gathered at the right positions, holding the field's values there, are exactly the cube `CubeAt` reads from the field |
| `MarchingCubes.ClassOfClassifies` | src/marching_cubes.rs:127-132 | a cube index classifies the cube at (x, y, z) iff it is that cube's index `ClassOf`, so exactly one index does |
| `MarchingCubes.UniformCubeIsSkipped` | src/marching_cubes.rs:127-138 | when rows 0 and 255 start with a sentinel, the reference march of a cube whose corners are all outside, or all inside, returns the sweep state unchanged |
| `MarchingCubes.CubeEdges` | src/marching_cubes.rs:134-140 | the edge ids a cube lists, its row's first 3 × TriangleCount entries, are all edge ids in [0, 12) |
| `MarchingCubes.SweepCell` | src/marching_cubes.rs:118-161 | with the layers holding the slices at z and z+1, one pass of the x loop's body equals `SweptCell`: cube (x, y, z) as `MarchAt` states it, then one advance_cell. It keeps whole triangles and the sweep invariant |
| `MarchingCubes.SweepRow` | src/marching_cubes.rs:117-162 | with the layers holding the slices at z and z+1, the x loop from column x on equals `SweptRow` (`MarchingCubes.RowSwept`): cubes x, x+1, …, size−2 of row y in slab z, in that order, each marched from the field and followed by advance_cell. It calls advance_cell size−1−x times, pushes whole triangles, and keeps the sweep invariant |
| `MarchingCubes.SweepSlab` | src/marching_cubes.rs:116-164 | with the layers holding the slices at z and z+1, the y loop from row y on equals `SweptSlab` (`MarchingCubes.SlabSwept`): rows y, y+1, …, size−2 of slab z, in that order, each followed by advance_row. It calls advance_cell (size−1−y)·(size−1) times, counted row by row, calls advance_row size−1−y times, and keeps the sweep invariant |
| `MarchingCubes.SweepLayer` | src/marching_cubes.rs:104-167 | with layer 0 holding the slice at z/(size−1), one z step leaves layer 1 holding the slice at (z+1)/(size−1). The state it returns equals `SweptLayer`: every row of slab z, then one advance_layer. It keeps whole triangles and the sweep invariant, and brings the advance tally to z+1 full slabs |
| `MarchingCubes.SlabTallyClosedForm` | src/marching_cubes.rs:104-117 | after z steps of (size−1)² cubes in size−1 rows, the advance tallies are z·(size−1)², z·(size−1) and z |
| `MarchingCubes.TimesIsProduct` | src/marching_cubes.rs:116-117 | counting m cubes per row over n rows, row by row, gives n·m |
| `MarchingCubes.SweepLayers` | src/marching_cubes.rs:104-168 | the z loop from slab z on equals `SweptLayers`: slabs z, …, size−1, in order. It brings the advance tally to that of size full slabs, keeps the sweep invariant, and leaves the swapped layers holding the slices at size/(size−1) and 1 |
| `MarchingCubes.LastSlabBeyondUnitCube` | src/marching_cubes.rs:104-111 | the last z step samples at size/(size−1) > 1, while z = size−1 maps to exactly 1 |
| `MarchingCubes.ExtractImpl` | src/marching_cubes.rs:84-169 | the returned vertex buffer, index buffer and call log are those of `SweptGrid`, the reference sweep of the whole field in z, y, x order; the puts record 0, 1, …, n−1 and the vertex buffer grows by exactly 3n reals (positions) or 6n (with normals), so the emitted vertex count equals the final counter; the index buffer grows by whole triangles; with an honest cache every pushed index is below n; prior buffer contents are untouched; the cache sees size·(size−1)² cells, size·(size−1) rows and size layers; after the last swap layer 0 holds the slice at size/(size−1) |
| `MarchingCubes.Extract` | src/marching_cubes.rs:46-61 | positions only: the buffers and the call log are those of `SweptGrid` with the positions-only emitter; the extractor keeps its size and valid layers (so it can be run again), the puts record 0, 1, …, n−1 and the vertex buffer grows by exactly 3n reals; indices are appended as whole triangles and, with an honest cache, each is below n; the advance tallies are those of the full sweep |
| `MarchingCubes.ExtractWithNormals` | src/marching_cubes.rs:63-82 | the buffers and the call log are those of `SweptGrid` with the normal-appending emitter; the same guarantees as `Extract`, except that the vertex buffer grows by exactly 6n reals and the last three of each group are the source's normal at the first three |

## Left out

- Floating point: `f32` values are reals, so rounding, NaN and infinity are not modelled. The zero-delta test at line 27 is an exact equality on reals.
- Integer widths: the `u32` vertex counter and the `usize` arithmetic (`size*size`, `size - 1`) are unbounded. Wrap-around after 2³² vertices is not modelled.
- MarchingCubes.ExtractImpl: requires size ≥ 2, which the source does not check. For size 0, `size - 1` underflows. For size 1, `1.0 / 0.0` is infinite in `f32` and the field is sampled at non-finite coordinates. Reals cannot represent either case. `MarchingCubes.Extract` and `MarchingCubes.ExtractWithNormals` inherit the same precondition.
- The contents of `CORNERS`, `EDGE_CONNECTION` and `TRIANGLE_CONNECTION` (the `marching_cubes_tables` module) are not part of this model. Only their shape is assumed.
- The `IndexCache` implementation (`index_cache` module) is not part of this model: its storage and its row/layer rotation are unknown. Only its call protocol is modelled. Deduplication across neighbouring cubes therefore cannot be proved, and no result depends on it.
- Triangle rows with a started triangle whose second or third entry is negative: `Tables.Valid()` assumes every started triangle lists three edge ids. The source reads those two entries with an unchecked `as usize` cast at line 140, which would turn a negative entry into a huge index and panic on the edge-table access; that path is not modelled.
- The `Source` and `HermiteSource` implementations (`source` module) are not part of this model. They are taken as pure functions.
- `Vec` growth and the `FnMut` emitter closure are modelled as appending to sequences.
- Geometric correctness of the mesh, such as watertightness or surface approximation, is not modelled. It depends on the table contents and on floating-point behaviour.

=== FILE: classify.dfy ===
/** Classification of a cube: the 8-bit mask whose bit `i` records whether
    corner `i` is inside the surface (its field value is at most zero). The
    source accumulates the mask in a machine word, but only bits 0 to 7 are
    ever set, so an 8-bit vector models it exactly. */
module Classify {

  /** The "inside" convention: a value of exactly zero counts as inside. */
  predicate Inside(v: real) {
    v <= 0.0
  }

  /** Bit `i` of a cube index. */
  predicate Bit(c: bv8, i: nat)
    requires i < 8
  {
    (c >> i) & 1 == 1
  }

  /** The cube index of the first `n` values: bit i, for each i below n, is
      or-ed in when value i is inside. */
  function IndexUpTo(values: seq<real>, n: nat): (c: bv8)
    requires |values| == 8 && n <= 8
    ensures forall k :: 0 <= k < 8 ==> (Bit(c, k) <==> k < n && Inside(values[k]))
  {
    if n == 0 then 0
    else
      var before := IndexUpTo(values, n - 1);
      if Inside(values[n - 1]) then
        SetBitEverywhere(before, n - 1);
        before | (1 << (n - 1))
      else before
  }

  /** The cube index of eight corner values. */
  function IndexOf(values: seq<real>): bv8
    requires |values| == 8
  {
    IndexUpTo(values, 8)
  }

  /** Builds the cube index by or-ing in one bit per inside corner. */
  method CubeIndex(values: seq<real>) returns (cubeIndex: bv8)
    requires |values| == 8
    ensures cubeIndex == IndexOf(values)
    ensures forall i :: 0 <= i < 8 ==> (Bit(cubeIndex, i) <==> Inside(values[i]))
    ensures (forall i :: 0 <= i < 8 ==> !Inside(values[i])) ==> cubeIndex == 0
    ensures (forall i :: 0 <= i < 8 ==> Inside(values[i])) ==> cubeIndex == 255
  {
    cubeIndex := 0;
    for i := 0 to 8
      invariant cubeIndex == IndexUpTo(values, i)
    {
      if values[i] <= 0.0 {
        cubeIndex := cubeIndex | (1 << i);
      }
    }
    BitsDetermineIndex(cubeIndex);
  }

  lemma SetBitEverywhere(c: bv8, i: nat)
    requires i < 8
    ensures forall k :: 0 <= k < 8 ==> (Bit(c | (1 << i), k) <==> (k == i || Bit(c, k)))
  {
    forall k | 0 <= k < 8
      ensures Bit(c | (1 << i), k) <==> (k == i || Bit(c, k))
    {
      SetBit(c, i, k);
    }
  }

  /** Or-ing in bit `i` sets that bit and leaves every other bit alone. */
  lemma SetBit(c: bv8, i: nat, k: nat)
    requires i < 8 && k < 8
    ensures Bit(c | (1 << i), k) <==> (k == i || Bit(c, k))
  {
    if k == i {
      assert (((1 as bv8) << i) >> k) & 1 == 1;
    } else {
      assert (((1 as bv8) << i) >> k) & 1 == 0;
    }
  }

  /** An 8-bit index is fixed by its eight bits; in particular no bit set
      means 0 and every bit set means 255. */
  lemma BitsDetermineIndex(c: bv8)
    ensures (forall i :: 0 <= i < 8 ==> !Bit(c, i)) ==> c == 0
    ensures (forall i :: 0 <= i < 8 ==> Bit(c, i)) ==> c == 255
  {
    if forall i :: 0 <= i < 8 ==> !Bit(c, i) {
      assert !Bit(c, 0) && !Bit(c, 1) && !Bit(c, 2) && !Bit(c, 3);
      assert !Bit(c, 4) && !Bit(c, 5) && !Bit(c, 6) && !Bit(c, 7);
    }
    if forall i :: 0 <= i < 8 ==> Bit(c, i) {
      assert Bit(c, 0) && Bit(c, 1) && Bit(c, 2) && Bit(c, 3);
      assert Bit(c, 4) && Bit(c, 5) && Bit(c, 6) && Bit(c, 7);
    }
  }

  /** Two 8-bit indices with the same eight bits are equal. */
  lemma BitsAgree(c: bv8, d: bv8)
    requires forall i :: 0 <= i < 8 ==> (Bit(c, i) <==> Bit(d, i))
    ensures c == d
  {
    assert Bit(c, 0) == Bit(d, 0) && Bit(c, 1) == Bit(d, 1) && Bit(c, 2) == Bit(d, 2) && Bit(c, 3) == Bit(d, 3);
    assert Bit(c, 4) == Bit(d, 4) && Bit(c, 5) == Bit(d, 5) && Bit(c, 6) == Bit(d, 6) && Bit(c, 7) == Bit(d, 7);
  }
}

=== FILE: cube.dfy ===
/** One cube of the sweep: gathering its eight corners from the two layers,
    and walking its row of the triangle table, where every edge id either
    reuses a cached vertex index or emits a new vertex. */
module Cube {
  import opened MarchingCubesTables
  import opened Interpolation
  import opened Layers
  import opened IndexCache

  /** What is appended to the vertex buffer per emitted vertex: the position
      alone, or the position followed by the field's normal at it. */
  datatype Emitter =
    | Positions
    | WithNormals(normal: (real, real, real) -> (real, real, real))

  /** Number of reals appended per emitted vertex. */
  function Width(out: Emitter): nat {
    if out.Positions? then 3 else 6
  }

  /** Number of reals taken by `n` emitted vertices. */
  function Span(out: Emitter, n: nat): nat {
    if out.Positions? then 3 * n else 6 * n
  }

  /** The reals appended for a vertex at `p`. */
  function Emit(out: Emitter, p: Point): (vs: seq<real>)
    ensures |vs| == Width(out)
    ensures vs[..3] == [p.x, p.y, p.z]
    ensures out.WithNormals? ==> (vs[3], vs[4], vs[5]) == out.normal(p.x, p.y, p.z)
  {
    match out
    case Positions => [p.x, p.y, p.z]
    case WithNormals(normal) =>
      var (nx, ny, nz) := normal(p.x, p.y, p.z);
      [p.x, p.y, p.z, nx, ny, nz]
  }

  /** In a buffer of vertices starting at `base`, the normal stored with
      vertex `k` is the field's normal at that vertex's own position. */
  ghost predicate NormalMatches(out: Emitter, vs: seq<real>, base: nat, k: nat) {
    out.WithNormals? ==>
      var o := base + 6 * k;
      o + 6 <= |vs| && (vs[o + 3], vs[o + 4], vs[o + 5]) == out.normal(vs[o], vs[o + 1], vs[o + 2])
  }

  /** A cube at origin (x, y) of the current slab: the positions and field
      values of its eight corners. */
  datatype Cube = Cube(x: nat, y: nat, positions: seq<Point>, values: seq<real>)
  {
    predicate Valid() {
      |positions| == 8 && |values| == 8
    }
  }

  /** The state the sweep threads from edge to edge: the next vertex index,
      the two output buffers, and the calls made on the index cache. */
  datatype Sweep = Sweep(counter: nat, vertices: seq<real>, indices: seq<nat>, log: seq<Call>)

  /** The vertex placed on edge `e` of cube `c`. */
  function Crossing(c: Cube, e: Edge): (p: Point)
    requires c.Valid() && e.u < 8 && e.v < 8
    // On every axis the vertex sits the offset's fraction of the way from corner u to corner v ...
    ensures var a, b, t := c.positions[e.u], c.positions[e.v], GetOffset(c.values[e.u], c.values[e.v]);
      && p.x - a.x == (b.x - a.x) * t
      && p.y - a.y == (b.y - a.y) * t
      && p.z - a.z == (b.z - a.z) * t
    // ... which is the edge's midpoint when the two corner values are equal.
    ensures c.values[e.u] == c.values[e.v] ==>
      var a, b := c.positions[e.u], c.positions[e.v];
      p == Point((a.x + b.x) / 2.0, (a.y + b.y) / 2.0, (a.z + b.z) / 2.0)
  {
    Lerp(c.positions[e.u], c.positions[e.v], GetOffset(c.values[e.u], c.values[e.v]))
  }

  /** When the field changes sign along an edge, its vertex lies on the
      segment between the edge's two corners, at the root of the linear
      interpolation of the corner values. */
  lemma CrossingOnEdge(c: Cube, e: Edge)
    requires c.Valid() && e.u < 8 && e.v < 8
    requires Straddles(c.values[e.u], c.values[e.v])
    ensures Between(c.positions[e.u], c.positions[e.v], Crossing(c, e))
    ensures Interpolate(c.values[e.u], c.values[e.v], GetOffset(c.values[e.u], c.values[e.v])) == 0.0
  {
    CrossingOnSegment(c.positions[e.u], c.positions[e.v], c.values[e.u], c.values[e.v]);
    OffsetIsRoot(c.values[e.u], c.values[e.v]);
  }

  /** Handles one edge id of a triangle. The cache is asked for (x, y, edge);
      an answer above 0 is pushed as it is, with nothing emitted. Otherwise
      the current counter is recorded in the cache, pushed, and advanced, and
      one vertex is emitted. Because the test is "above 0", a cached index
      of 0 is never reused. */
  function VisitEdge(s: Sweep, c: Cube, edge: nat, t: Tables, cache: Lookup, out: Emitter): (r: Sweep)
    requires t.Valid() && c.Valid() && edge < 12
    ensures |r.indices| == |s.indices| + 1 && r.indices[..|s.indices|] == s.indices
    ensures |s.log| < |r.log| && r.log[..|s.log|] == s.log
    ensures r.log[|s.log|] == Get(c.x, c.y, edge)
    ensures cache(s.log, c.x, c.y, edge) > 0 ==>
      && r.indices[|s.indices|] == cache(s.log, c.x, c.y, edge)
      && r.counter == s.counter
      && r.vertices == s.vertices
      && |r.log| == |s.log| + 1
    ensures cache(s.log, c.x, c.y, edge) == 0 ==>
      && r.indices[|s.indices|] == s.counter < r.counter == s.counter + 1
      && r.vertices == s.vertices + Emit(out, Crossing(c, t.edges[edge]))
      && r.log == s.log + [Get(c.x, c.y, edge), Put(c.x, c.y, edge, s.counter)]
  {
    var cached := cache(s.log, c.x, c.y, edge);
    var log := s.log + [Get(c.x, c.y, edge)];
    if cached > 0 then
      s.(indices := s.indices + [cached], log := log)
    else
      var e := t.edges[edge];
      Sweep(s.counter + 1,
            s.vertices + Emit(out, Crossing(c, e)),
            s.indices + [s.counter],
            log + [Put(c.x, c.y, edge, s.counter)])
  }

  /** Every entry of `edges` is an edge id, in [0, 12). */
  predicate EdgeIds(edges: seq<int>) {
    forall k :: 0 <= k < |edges| ==> 0 <= edges[k] < 12
  }

  /** The reference walk: `VisitEdge` applied to the edge ids of `edges` one
      after the other, in order, all on cube `c`. */
  function VisitEdges(s: Sweep, c: Cube, edges: seq<int>, t: Tables, cache: Lookup, out: Emitter): Sweep
    requires t.Valid() && c.Valid() && EdgeIds(edges)
    decreases |edges|, 1
  {
    if |edges| == 0 then s else VisitEdgesThenLast(s, c, edges, t, cache, out)
  }

  /** The walk over a non-empty list: the walk over all but its last entry,
      then the visit of the last. */
  function VisitEdgesThenLast(s: Sweep, c: Cube, edges: seq<int>, t: Tables, cache: Lookup, out: Emitter): Sweep
    requires t.Valid() && c.Valid() && EdgeIds(edges) && |edges| > 0
    decreases |edges|, 0
  {
    VisitEdge(VisitEdges(s, c, edges[..|edges| - 1], t, cache, out), c, edges[|edges| - 1] as nat, t, cache, out)
  }

  /** Walking two lists of edge ids one after the other is walking their concatenation. */
  lemma {:induction false} VisitEdgesAppend(s: Sweep, c: Cube, e1: seq<int>, e2: seq<int>, t: Tables,
                                            cache: Lookup, out: Emitter)
    requires t.Valid() && c.Valid() && EdgeIds(e1) && EdgeIds(e2)
    ensures EdgeIds(e1 + e2)
    ensures VisitEdges(s, c, e1 + e2, t, cache, out)
            == VisitEdges(VisitEdges(s, c, e1, t, cache, out), c, e2, t, cache, out)
    decreases |e2|
  {
    if |e2| == 0 {
      assert e1 + e2 == e1;
    } else {
      var front := e2[..|e2| - 1];
      assert (e1 + e2)[..|e1 + e2| - 1] == e1 + front;
      VisitEdgesAppend(s, c, e1, front, t, cache, out);
    }
  }

  /** The bookkeeping the sweep keeps, relative to the buffers `v0` and `i0`
      it started from: every vertex index handed out so far was recorded by
      exactly one `put`, in order 0, 1, 2, ...; each index owns one group of
      Width reals in the vertex buffer; the buffers only ever grow; and, when
      the cache is honest, no pushed index refers to a vertex not yet emitted. */
  ghost predicate Bookkept(s: Sweep, out: Emitter, v0: seq<real>, i0: seq<nat>, cache: Lookup) {
    && Puts(s.log) == Range(s.counter)
    && VerticesKept(s, out, v0)
    && IndicesKept(s, i0, cache)
  }

  /** Each index handed out owns one group of Width reals after `v0`, whose
      normal (if any) matches its position. */
  ghost predicate VerticesKept(s: Sweep, out: Emitter, v0: seq<real>) {
    && |s.vertices| == |v0| + Span(out, s.counter)
    && s.vertices[..|v0|] == v0
    && (forall k :: 0 <= k < s.counter ==> NormalMatches(out, s.vertices, |v0|, k))
  }

  /** The index buffer extends `i0` and, with an honest cache, refers only
      to vertices already emitted. */
  ghost predicate IndicesKept(s: Sweep, i0: seq<nat>, cache: Lookup) {
    && |i0| <= |s.indices| && s.indices[..|i0|] == i0
    && (Honest(cache) ==> forall p :: |i0| <= p < |s.indices| ==> s.indices[p] < s.counter)
  }

  /** The bookkeeping holds before the first cube: no index handed out,
      buffers as given, no cache call made. */
  lemma BookkeptAtStart(out: Emitter, v0: seq<real>, i0: seq<nat>, cache: Lookup)
    ensures Bookkept(Sweep(0, v0, i0, []), out, v0, i0, cache)
  {
    assert v0[..|v0|] == v0 && i0[..|i0|] == i0;
  }

  /** What the bookkeeping says in terms of the cache log alone: the number
      of vertices emitted is the number of `put` calls. */
  lemma BookkeptMeans(s: Sweep, out: Emitter, v0: seq<real>, i0: seq<nat>, cache: Lookup)
    requires Bookkept(s, out, v0, i0, cache)
    ensures |Puts(s.log)| == s.counter
    ensures Puts(s.log) == Range(|Puts(s.log)|)
    ensures |s.vertices| == |v0| + Span(out, |Puts(s.log)|)
    ensures forall k :: 0 <= k < |Puts(s.log)| ==> NormalMatches(out, s.vertices, |v0|, k)
    ensures Honest(cache) ==> forall p :: |i0| <= p < |s.indices| ==> s.indices[p] < |Puts(s.log)|
  {
  }

  lemma RangeSnoc(n: nat)
    ensures Range(n + 1) == Range(n) + [n]
  {
  }

  /** Visiting an edge keeps the bookkeeping. */
  lemma VisitEdgeKeepsBookkeeping(s: Sweep, c: Cube, edge: nat, t: Tables, cache: Lookup, out: Emitter,
                                  v0: seq<real>, i0: seq<nat>)
    requires t.Valid() && c.Valid() && edge < 12
    requires Bookkept(s, out, v0, i0, cache)
    ensures Bookkept(VisitEdge(s, c, edge, t, cache, out), out, v0, i0, cache)
  {
    if cache(s.log, c.x, c.y, edge) > 0 {
      HitKeepsBookkeeping(s, c, edge, t, cache, out, v0, i0);
    } else {
      MissKeepsBookkeeping(s, c, edge, t, cache, out, v0, i0);
    }
  }

  lemma HitKeepsBookkeeping(s: Sweep, c: Cube, edge: nat, t: Tables, cache: Lookup, out: Emitter,
                            v0: seq<real>, i0: seq<nat>)
    requires t.Valid() && c.Valid() && edge < 12
    requires Bookkept(s, out, v0, i0, cache)
    requires cache(s.log, c.x, c.y, edge) > 0
    ensures Bookkept(VisitEdge(s, c, edge, t, cache, out), out, v0, i0, cache)
  {
    var r := VisitEdge(s, c, edge, t, cache, out);
    var cached := cache(s.log, c.x, c.y, edge);
    PutsSnoc(s.log, Get(c.x, c.y, edge));
    assert r.log == s.log + [Get(c.x, c.y, edge)];
    assert r.indices == s.indices + [cached];
    if Honest(cache) {
      assert cached in Range(s.counter);
    }
  }

  lemma MissKeepsBookkeeping(s: Sweep, c: Cube, edge: nat, t: Tables, cache: Lookup, out: Emitter,
                             v0: seq<real>, i0: seq<nat>)
    requires t.Valid() && c.Valid() && edge < 12
    requires Bookkept(s, out, v0, i0, cache)
    requires cache(s.log, c.x, c.y, edge) == 0
    ensures Bookkept(VisitEdge(s, c, edge, t, cache, out), out, v0, i0, cache)
  {
    var r := VisitEdge(s, c, edge, t, cache, out);
    var get, put := Get(c.x, c.y, edge), Put(c.x, c.y, edge, s.counter);
    PutsSnoc(s.log, get);
    PutsSnoc(s.log + [get], put);
    assert r.log == s.log + [get] + [put];
    RangeSnoc(s.counter);
    assert r.indices == s.indices + [s.counter];
    VerticesExtend(out, v0, s.vertices, s.counter, Crossing(c, t.edges[edge]));
  }

  /** Appending one emitted vertex to a well-formed vertex buffer keeps it well formed. */
  lemma VerticesExtend(out: Emitter, v0: seq<real>, vs: seq<real>, n: nat, p: Point)
    requires |vs| == |v0| + Span(out, n) && vs[..|v0|] == v0
    requires forall k :: 0 <= k < n ==> NormalMatches(out, vs, |v0|, k)
    ensures |vs + Emit(out, p)| == |v0| + Span(out, n + 1)
    ensures (vs + Emit(out, p))[..|v0|] == v0
    ensures forall k :: 0 <= k < n + 1 ==> NormalMatches(out, vs + Emit(out, p), |v0|, k)
  {
    var ws := vs + Emit(out, p);
    assert ws[..|vs|] == vs;
    assert ws[..|v0|] == v0;
    forall k | 0 <= k < n + 1
      ensures NormalMatches(out, ws, |v0|, k)
    {
      if k < n {
        assert NormalMatches(out, vs, |v0|, k);
      }
    }
  }

  /** A stretch of cache calls made while handling one cube: only `get` and
      `put`, and all keyed by that cube's origin. */
  predicate CubeCalls(calls: seq<Call>, x: nat, y: nat) {
    forall k :: 0 <= k < |calls| ==>
      (calls[k].Get? || calls[k].Put?) && calls[k].x == x && calls[k].y == y
  }

  /** The edge ids asked of the cache by the `get` calls in a stretch of
      calls, in call order. */
  function Asked(calls: seq<Call>): (edges: seq<int>)
    ensures |edges| <= |calls|
  {
    if |calls| == 0 then []
    else
      var last := calls[|calls| - 1];
      Asked(calls[..|calls| - 1]) + (if last.Get? then [last.edge as int] else [])
  }

  lemma AskedSnoc(calls: seq<Call>, c: Call)
    ensures Asked(calls + [c]) == Asked(calls) + (if c.Get? then [c.edge as int] else [])
  {
    assert (calls + [c])[..|calls|] == calls;
  }

  /** The edge ids asked in two consecutive stretches are those of the first, then those of the second. */
  lemma {:induction false} AskedAppend(a: seq<Call>, b: seq<Call>)
    ensures Asked(a + b) == Asked(a) + Asked(b)
    decreases |b|
  {
    if |b| > 0 {
      var front := b[..|b| - 1];
      assert b == front + [b[|b| - 1]];
      assert a + b == (a + front) + [b[|b| - 1]];
      AskedAppend(a, front);
      AskedSnoc(a + front, b[|b| - 1]);
      AskedSnoc(front, b[|b| - 1]);
    } else {
      assert a + b == a;
    }
  }

  /** For three logs each extending the one before, the edge ids asked since
      the first split at the second. */
  lemma AskedSplit(a: seq<Call>, b: seq<Call>, c: seq<Call>)
    requires |a| <= |b| <= |c| && b[..|a|] == a && c[..|b|] == b
    ensures Asked(c[|a|..]) == Asked(b[|a|..]) + Asked(c[|b|..])
  {
    assert c[|a|..] == b[|a|..] + c[|b|..];
    AskedAppend(b[|a|..], c[|b|..]);
  }

  /** One edge visit asks the cache about that edge and no other. */
  lemma VisitEdgeAsks(s: Sweep, c: Cube, edge: nat, t: Tables, cache: Lookup, out: Emitter)
    requires t.Valid() && c.Valid() && edge < 12
    ensures var r := VisitEdge(s, c, edge, t, cache, out); Asked(r.log[|s.log|..]) == [edge]
  {
    var r := VisitEdge(s, c, edge, t, cache, out);
    if cache(s.log, c.x, c.y, edge) == 0 {
      AskedGetPut(s.log, r.log, c.x, c.y, edge, s.counter);
    } else {
      AskedGet(s.log, r.log, c.x, c.y, edge);
    }
  }

  /** A log that grew by one `get` asked about its edge id. */
  lemma AskedGet(log: seq<Call>, log': seq<Call>, x: nat, y: nat, edge: nat)
    requires |log'| == |log| + 1 && log'[|log|] == Get(x, y, edge)
    ensures Asked(log'[|log|..]) == [edge]
  {
    assert log'[|log|..] == [] + [Get(x, y, edge)];
    AskedSnoc([], Get(x, y, edge));
  }

  /** A log that grew by a `get` and then a `put` asked about the edge id of
      the `get` alone. */
  lemma AskedGetPut(log: seq<Call>, log': seq<Call>, x: nat, y: nat, edge: nat, index: nat)
    requires log' == log + [Get(x, y, edge), Put(x, y, edge, index)]
    ensures Asked(log'[|log|..]) == [edge]
  {
    assert log'[|log|..] == ([] + [Get(x, y, edge)]) + [Put(x, y, edge, index)];
    AskedSnoc([], Get(x, y, edge));
    AskedSnoc([Get(x, y, edge)], Put(x, y, edge, index));
  }

  /** `r` follows `s` within one cube: both buffers and the log were only
      appended to, the vertex buffer by one group per index handed out, and
      the log by `get`/`put` calls keyed by the cube's origin. */
  predicate Grows(s: Sweep, r: Sweep, out: Emitter, x: nat, y: nat) {
    && |s.indices| <= |r.indices| && r.indices[..|s.indices|] == s.indices
    && s.counter <= r.counter
    && |r.vertices| == |s.vertices| + Span(out, r.counter - s.counter)
    && |s.log| <= |r.log| && r.log[..|s.log|] == s.log
    && CubeCalls(r.log[|s.log|..], x, y)
  }

  lemma GrowsTransitive(a: Sweep, b: Sweep, c: Sweep, out: Emitter, x: nat, y: nat)
    requires Grows(a, b, out, x, y) && Grows(b, c, out, x, y)
    ensures Grows(a, c, out, x, y)
  {
    assert c.indices[..|a.indices|] == c.indices[..|b.indices|][..|a.indices|];
    assert c.log[..|a.log|] == c.log[..|b.log|][..|a.log|];
    assert c.log[|a.log|..] == b.log[|a.log|..] + c.log[|b.log|..];
  }

  /** One edge visit is a step of growth that pushes exactly one index. */
  lemma VisitEdgeGrows(s: Sweep, c: Cube, edge: nat, t: Tables, cache: Lookup, out: Emitter)
    requires t.Valid() && c.Valid() && edge < 12
    ensures Grows(s, VisitEdge(s, c, edge, t, cache, out), out, c.x, c.y)
  {
    var r := VisitEdge(s, c, edge, t, cache, out);
    if cache(s.log, c.x, c.y, edge) == 0 {
      assert r.log[|s.log|..] == [Get(c.x, c.y, edge), Put(c.x, c.y, edge, s.counter)];
    } else {
      assert r.log[|s.log|..] == [Get(c.x, c.y, edge)];
    }
  }

  /** `r` is the walk from `s` over the edge ids `edges` on cube `c`: it
      asked the cache about exactly those edge ids, in order, pushed one
      index per edge id, grew the buffers and kept the bookkeeping. */
  ghost predicate Walked(s: Sweep, r: Sweep, c: Cube, t: Tables, cache: Lookup, out: Emitter,
                         v0: seq<real>, i0: seq<nat>, edges: seq<int>) {
    && t.Valid() && c.Valid() && EdgeIds(edges)
    && r == VisitEdges(s, c, edges, t, cache, out)
    && Grows(s, r, out, c.x, c.y)
    && |r.indices| == |s.indices| + |edges|
    && Asked(r.log[|s.log|..]) == edges
    && (Bookkept(s, out, v0, i0, cache) ==> Bookkept(r, out, v0, i0, cache))
  }

  lemma WalkedNothing(s: Sweep, c: Cube, t: Tables, cache: Lookup, out: Emitter, v0: seq<real>, i0: seq<nat>)
    requires t.Valid() && c.Valid()
    ensures Walked(s, s, c, t, cache, out, v0, i0, [])
  {
    assert s.indices[..|s.indices|] == s.indices && s.log[..|s.log|] == s.log;
    assert s.log[|s.log|..] == [];
  }

  /** Two walks in a row are one walk over both lists of edge ids. */
  lemma WalkedTransitive(a: Sweep, b: Sweep, d: Sweep, c: Cube, t: Tables, cache: Lookup, out: Emitter,
                         v0: seq<real>, i0: seq<nat>, e1: seq<int>, e2: seq<int>)
    requires Walked(a, b, c, t, cache, out, v0, i0, e1) && Walked(b, d, c, t, cache, out, v0, i0, e2)
    ensures Walked(a, d, c, t, cache, out, v0, i0, e1 + e2)
  {
    VisitEdgesAppend(a, c, e1, e2, t, cache, out);
    GrowsTransitive(a, b, d, out, c.x, c.y);
    AskedSplit(a.log, b.log, d.log);
  }

  /** Walking a one-entry list is visiting that edge. */
  lemma VisitOneEdge(s: Sweep, c: Cube, edge: nat, t: Tables, cache: Lookup, out: Emitter)
    requires t.Valid() && c.Valid() && edge < 12
    ensures VisitEdges(s, c, [edge], t, cache, out) == VisitEdge(s, c, edge, t, cache, out)
  {
    assert [edge as int][..0] == [];
    assert VisitEdges(s, c, [], t, cache, out) == s;
    assert VisitEdges(s, c, [edge], t, cache, out) == VisitEdgesThenLast(s, c, [edge], t, cache, out);
  }

  /** One edge visit is a walk over that edge id alone. */
  lemma VisitEdgeWalks(s: Sweep, c: Cube, edge: nat, t: Tables, cache: Lookup, out: Emitter,
                       v0: seq<real>, i0: seq<nat>)
    requires t.Valid() && c.Valid() && edge < 12
    ensures Walked(s, VisitEdge(s, c, edge, t, cache, out), c, t, cache, out, v0, i0, [edge])
  {
    assert [edge as int][..0] == [];
    VisitOneEdge(s, c, edge, t, cache, out);
    if Bookkept(s, out, v0, i0, cache) {
      VisitEdgeKeepsBookkeeping(s, c, edge, t, cache, out, v0, i0);
    }
    VisitEdgeGrows(s, c, edge, t, cache, out);
    VisitEdgeAsks(s, c, edge, t, cache, out);
  }

  /** Visiting entry j of triangle slot `i` after entries 0 .. j-1 walks
      entries 0 .. j. */
  lemma WalkedEdge(s: Sweep, r: Sweep, next: Sweep, c: Cube, t: Tables, cache: Lookup, out: Emitter,
                   v0: seq<real>, i0: seq<nat>, row: seq<int>, i: nat, j: nat)
    requires |row| == RowLength && i < MaxTriangles && j < 3
    requires Walked(s, r, c, t, cache, out, v0, i0, row[3 * i .. 3 * i + j])
    requires Walked(r, next, c, t, cache, out, v0, i0, [Slot(row, i, j)])
    ensures Walked(s, next, c, t, cache, out, v0, i0, row[3 * i .. 3 * i + (j + 1)])
  {
    WalkedTransitive(s, r, next, c, t, cache, out, v0, i0, row[3 * i .. 3 * i + j], [Slot(row, i, j)]);
    SliceExtend(row, 3 * i, 3 * i + j);
  }

  lemma SliceExtend(row: seq<int>, lo: nat, hi: nat)
    requires lo <= hi < |row|
    ensures row[lo .. hi + 1] == row[lo .. hi] + [row[hi]]
  {
  }

  /** Visits the three edge ids of triangle slot `i` of `row`: it asks the
      cache about exactly those three entries of the row, in order, and
      pushes one index for each. */
  method VisitTriangle(s: Sweep, c: Cube, row: seq<int>, i: nat, t: Tables, cache: Lookup, out: Emitter,
                       ghost v0: seq<real>, ghost i0: seq<nat>)
    returns (r: Sweep)
    requires t.Valid() && c.Valid() && RowValid(row) && i < MaxTriangles && Slot(row, i, 0) >= 0
    ensures Walked(s, r, c, t, cache, out, v0, i0, row[3 * i .. 3 * i + 3])
  {
    r := s;
    WalkedNothing(s, c, t, cache, out, v0, i0);
    for j := 0 to 3
      invariant Walked(s, r, c, t, cache, out, v0, i0, row[3 * i .. 3 * i + j])
    {
      var vert := Slot(row, i, j);
      var next := VisitEdge(r, c, vert, t, cache, out);
      VisitEdgeWalks(r, c, vert, t, cache, out, v0, i0);
      WalkedEdge(s, r, next, c, t, cache, out, v0, i0, row, i, j);
      r := next;
    }
  }

  /** `n` indices make whole triangles: counted off three at a time. */
  predicate Triples(n: nat) {
    n == 0 || (n >= 3 && Triples(n - 3))
  }

  lemma {:induction false} TriplesAreMultiplesOfThree(n: nat)
    ensures Triples(n) <==> n % 3 == 0
  {
    if n >= 3 {
      TriplesAreMultiplesOfThree(n - 3);
    }
  }

  /** The index buffer has grown from `i0` by whole triangles. */
  predicate WholeTriangles(s: Sweep, i0: seq<nat>) {
    |i0| <= |s.indices| && Triples(|s.indices| - |i0|)
  }

  /** Walking triangle slot `i` after slots 0 .. i-1 walks slots 0 .. i. */
  lemma WalkedTriangle(s: Sweep, r: Sweep, next: Sweep, c: Cube, t: Tables, cache: Lookup, out: Emitter,
                       v0: seq<real>, i0: seq<nat>, row: seq<int>, i: nat)
    requires |row| == RowLength && i < MaxTriangles
    requires Walked(s, r, c, t, cache, out, v0, i0, row[..3 * i])
    requires Walked(r, next, c, t, cache, out, v0, i0, row[3 * i .. 3 * i + 3])
    requires WholeTriangles(s, i0) ==> WholeTriangles(r, i0)
    ensures Walked(s, next, c, t, cache, out, v0, i0, row[..3 * (i + 1)])
    ensures WholeTriangles(s, i0) ==> WholeTriangles(next, i0)
  {
    var lo := 3 * i;
    WalkedTransitive(s, r, next, c, t, cache, out, v0, i0, row[..lo], row[lo .. lo + 3]);
    PrefixExtend(row, lo, lo + 3);
    assert 3 * (i + 1) == lo + 3;
    if WholeTriangles(s, i0) {
      OneMoreTriangle(r, next, i0);
    }
  }

  /** Three more indices after whole triangles are whole triangles again. */
  lemma OneMoreTriangle(r: Sweep, next: Sweep, i0: seq<nat>)
    requires WholeTriangles(r, i0) && |next.indices| == |r.indices| + 3
    ensures WholeTriangles(next, i0)
  {
    assert |next.indices| - |i0| - 3 == |r.indices| - |i0|;
  }

  lemma PrefixExtend(row: seq<int>, m: nat, n: nat)
    requires m <= n <= |row|
    ensures row[..n] == row[..m] + row[m..n]
  {
  }

  /** A started slot at or below the count lies below it. */
  lemma StartedSlotCounted(row: seq<int>, i: nat)
    requires |row| == RowLength && i < MaxTriangles && i <= TriangleCount(row) && Slot(row, i, 0) >= 0
    ensures i + 1 <= TriangleCount(row)
  {
  }

  /** Walks the cube's row of the triangle table: at most five triangles,
      stopping at the first slot whose leading entry is negative, and asking
      the cache about the three edge ids of every triangle before it, in
      order. */
  method MarchCube(s: Sweep, c: Cube, cubeIndex: nat, t: Tables, cache: Lookup, out: Emitter,
                   ghost v0: seq<real>, ghost i0: seq<nat>)
    returns (r: Sweep)
    requires t.Valid() && c.Valid() && cubeIndex < 256
    ensures Walked(s, r, c, t, cache, out, v0, i0, t.triangles[cubeIndex][..3 * TriangleCount(t.triangles[cubeIndex])])
    ensures |r.indices| == |s.indices| + 3 * TriangleCount(t.triangles[cubeIndex])
    ensures WholeTriangles(s, i0) ==> WholeTriangles(r, i0)
  {
    var row := t.triangles[cubeIndex];
    ghost var walked := 0;
    r := s;
    WalkedNothing(s, c, t, cache, out, v0, i0);
    for i := 0 to 5
      invariant walked == i <= TriangleCount(row)
      invariant Walked(s, r, c, t, cache, out, v0, i0, row[..3 * walked])
      invariant WholeTriangles(s, i0) ==> WholeTriangles(r, i0)
    {
      if Slot(row, i, 0) < 0 {
        break;
      }
      var next := VisitTriangle(r, c, row, i, t, cache, out, v0, i0);
      WalkedTriangle(s, r, next, c, t, cache, out, v0, i0, row, i);
      StartedSlotCounted(row, i);
      r := next;
      walked := walked + 1;
    }
  }

  /** Reads the eight corners of the cube at origin (x, y, z): corner i sits
      at the origin moved by its offset, scaled to [0, 1], and its value is
      read from layer 0 or layer 1 according to its z offset. When the two
      layers hold the field's slices at z and z+1, every corner value is the
      field at that corner's position. */
  method GatherCorners(layer0: seq<real>, layer1: seq<real>, ghost field: Field, size: nat,
                       oneOverSize: real, x: nat, y: nat, z: nat, t: Tables)
    returns (c: Cube)
    requires t.Valid() && size >= 2 && x <= size - 2 && y <= size - 2
    requires |layer0| == size * size && |layer1| == size * size
    ensures c.Valid() && c.x == x && c.y == y
    ensures forall i :: 0 <= i < 8 ==>
      c.positions[i] == Point(Coord(x + t.corners[i].dx, oneOverSize),
                              Coord(y + t.corners[i].dy, oneOverSize),
                              Coord(z + t.corners[i].dz, oneOverSize))
    ensures layer0 == Slice(field, size, oneOverSize, Coord(z, oneOverSize)) &&
            layer1 == Slice(field, size, oneOverSize, Coord(z + 1, oneOverSize)) ==>
      forall i :: 0 <= i < 8 ==>
        c.values[i] == field(c.positions[i].x, c.positions[i].y, c.positions[i].z)
  {
    var positions: seq<Point> := [];
    var values: seq<real> := [];
    ghost var sampled := layer0 == Slice(field, size, oneOverSize, Coord(z, oneOverSize)) &&
                         layer1 == Slice(field, size, oneOverSize, Coord(z + 1, oneOverSize));
    for i := 0 to 8
      invariant |positions| == i && |values| == i
      invariant forall k :: 0 <= k < i ==>
        positions[k] == Point(Coord(x + t.corners[k].dx, oneOverSize),
                              Coord(y + t.corners[k].dy, oneOverSize),
                              Coord(z + t.corners[k].dz, oneOverSize))
      invariant sampled ==> forall k :: 0 <= k < i ==>
        values[k] == field(positions[k].x, positions[k].y, positions[k].z)
    {
      var o := t.corners[i];
      var p := Point(Coord(x + o.dx, oneOverSize), Coord(y + o.dy, oneOverSize), Coord(z + o.dz, oneOverSize));
      CornerReadInBounds(size, x, y, o.dx, o.dy);
      var at := LayerIndex(size, x + o.dx, y + o.dy);
      var v := if o.dz == 0 then layer0[at] else layer1[at];
      if sampled {
        SliceAt(field, size, oneOverSize, Coord(z + o.dz, oneOverSize), x + o.dx, y + o.dy);
      }
      positions := positions + [p];
      values := values + [v];
    }
    c := Cube(x, y, positions, values);
  }

  /** With a cache that remembers every `put` and answers 0 for a missing
      key, a vertex whose index is 0 is emitted a second time when its edge
      is asked for again: the hit test is "above 0", and 0 is also the first
      index handed out. */
  lemma IndexZeroIsReemitted(s: Sweep, c: Cube, edge: nat, t: Tables, out: Emitter)
    requires t.Valid() && c.Valid() && edge < 12
    requires s.counter == 0 && Recall(s.log, c.x, c.y, edge) == 0
    ensures var first := VisitEdge(s, c, edge, t, Recall, out);
            var second := VisitEdge(first, c, edge, t, Recall, out);
            && second.indices == s.indices + [0, 1]
            && second.counter == 2
            && |second.vertices| == |s.vertices| + 2 * Width(out)
  {
    RecallAfterPut(s.log, c.x, c.y, edge, 0);
  }

  /** With the same cache, once the counter is past 0 the second visit of an
      edge reuses the index the first visit handed out, and emits nothing. */
  lemma LaterIndexIsReused(s: Sweep, c: Cube, edge: nat, t: Tables, out: Emitter)
    requires t.Valid() && c.Valid() && edge < 12
    requires s.counter > 0 && Recall(s.log, c.x, c.y, edge) == 0
    ensures var first := VisitEdge(s, c, edge, t, Recall, out);
            var second := VisitEdge(first, c, edge, t, Recall, out);
            && second.indices == s.indices + [s.counter, s.counter]
            && second.counter == s.counter + 1
            && second.vertices == first.vertices
  {
    RecallAfterPut(s.log, c.x, c.y, edge, s.counter);
  }

  /** The never-forgetting store answers a key with the index just `put` under it. */
  lemma RecallAfterPut(log: seq<Call>, x: nat, y: nat, edge: nat, index: nat)
    ensures Recall(log + [Get(x, y, edge), Put(x, y, edge, index)], x, y, edge) == index
  {
    RecallSnoc(log + [Get(x, y, edge)], Put(x, y, edge, index), x, y, edge);
    assert log + [Get(x, y, edge)] + [Put(x, y, edge, index)] == log + [Get(x, y, edge), Put(x, y, edge, index)];
  }
}

=== FILE: index_cache.dfy ===
/** The call protocol of the vertex-index cache. The cache's storage and
    rotation strategy are not part of this model; what the extractor sees
    is the sequence of calls it makes (the log) and the number `get`
    answers, which may depend on anything in that log. */
module IndexCache {

  /** One call the extractor makes on the cache. */
  datatype Call =
    | Get(x: nat, y: nat, edge: nat)
    | Put(x: nat, y: nat, edge: nat, index: nat)
    | AdvanceCell
    | AdvanceRow
    | AdvanceLayer

  /** The answer of `get(x, y, edge)` given the calls made so far; 0 is the
      "nothing cached" answer the call site assumes. */
  type Lookup = (seq<Call>, nat, nat, nat) -> nat

  /** The vertex indices recorded by `put`, in call order. */
  function Puts(log: seq<Call>): (r: seq<nat>)
    ensures |r| <= |log|
  {
    if |log| == 0 then []
    else Puts(log[..|log| - 1]) + (if log[|log| - 1].Put? then [log[|log| - 1].index] else [])
  }

  /** The first `n` vertex indices, 0 to n-1. */
  function Range(n: nat): (r: seq<nat>)
    ensures |r| == n
    ensures forall k :: 0 <= k < n ==> r[k] == k
  {
    seq(n, k requires 0 <= k < n => k)
  }

  /** A cache that never invents an index: `get` answers 0 or an index
      that some earlier `put` recorded. */
  ghost predicate Honest(lookup: Lookup) {
    forall log, x, y, edge :: lookup(log, x, y, edge) == 0 || lookup(log, x, y, edge) in Puts(log)
  }

  /** Appending one call extends the recorded indices by that call's index, if it is a put. */
  lemma PutsSnoc(log: seq<Call>, c: Call)
    ensures Puts(log + [c]) == Puts(log) + (if c.Put? then [c.index] else [])
  {
    assert (log + [c])[..|log|] == log;
  }

  /** The most recent index `put` under key (x, y, edge), or 0 when none was:
      a plain keyed store that never forgets, one possible cache. */
  function Recall(log: seq<Call>, x: nat, y: nat, edge: nat): (r: nat)
    ensures r == 0 || r in Puts(log)
  {
    if |log| == 0 then 0
    else
      var last := log[|log| - 1];
      PutsSnoc(log[..|log| - 1], last);
      assert log[..|log| - 1] + [last] == log;
      if last.Put? && last.x == x && last.y == y && last.edge == edge then last.index
      else Recall(log[..|log| - 1], x, y, edge)
  }

  lemma RecallSnoc(log: seq<Call>, c: Call, x: nat, y: nat, edge: nat)
    ensures Recall(log + [c], x, y, edge)
         == if c.Put? && c.x == x && c.y == y && c.edge == edge then c.index else Recall(log, x, y, edge)
  {
    assert (log + [c])[..|log|] == log;
  }

  /** The never-forgetting store is honest. */
  lemma RecallIsHonest()
    ensures Honest(Recall)
  {
  }
}

=== FILE: interpolation.dfy ===
/** The two closed-form helpers used to place a vertex on a cube edge:
    the offset of the zero crossing along the edge, and linear
    interpolation between the edge's endpoints. Single-precision floats
    are modelled as reals. */
module Interpolation {

  /** A point in the sampled volume, in normalised coordinates. */
  datatype Point = Point(x: real, y: real, z: real)

  function Min(a: real, b: real): real { if a <= b then a else b }

  function Max(a: real, b: real): real { if a <= b then b else a }

  /** Where along an edge with end values `a` and `b` the field crosses
      zero: the root of the line through (0, a) and (1, b), or the midpoint
      when the two values are equal. */
  function GetOffset(a: real, b: real): (t: real)
    ensures b - a == 0.0 ==> t == 0.5
    ensures b - a != 0.0 ==> t * (b - a) == -a
  {
    var delta := b - a;
    if delta == 0.0 then 0.5 else -a / delta
  }

  /** The value a fraction `t` of the way from `a` to `b`. */
  function Interpolate(a: real, b: real, t: real): (r: real)
    ensures r - a == (b - a) * t
    ensures a == b ==> r == a
  {
    a * (1.0 - t) + b * t
  }

  /** The point a fraction `t` of the way from `p` to `q`, axis by axis. */
  function Lerp(p: Point, q: Point, t: real): Point {
    Point(Interpolate(p.x, q.x, t), Interpolate(p.y, q.y, t), Interpolate(p.z, q.z, t))
  }

  /** `p` lies inside the axis-aligned box spanned by `a` and `b`. */
  predicate Between(a: Point, b: Point, p: Point) {
    && Min(a.x, b.x) <= p.x <= Max(a.x, b.x)
    && Min(a.y, b.y) <= p.y <= Max(a.y, b.y)
    && Min(a.z, b.z) <= p.z <= Max(a.z, b.z)
  }

  /** The end values straddle zero under the "<= 0 is inside" convention. */
  predicate Straddles(a: real, b: real) {
    (a <= 0.0 < b) || (b <= 0.0 < a)
  }

  lemma InterpolateEndpoints(a: real, b: real)
    ensures Interpolate(a, b, 0.0) == a
    ensures Interpolate(a, b, 1.0) == b
  {
  }

  /** Off a degenerate edge, the offset is exactly where the linear
      interpolation of the end values vanishes. */
  lemma OffsetIsRoot(a: real, b: real)
    requires a != b
    ensures Interpolate(a, b, GetOffset(a, b)) == 0.0
  {
    var t := GetOffset(a, b);
    calc {
      Interpolate(a, b, t);
      a * (1.0 - t) + b * t;
      a + t * (b - a);
      a + -a;
    }
  }

  /** On an edge whose end values straddle zero the offset is a fraction. */
  lemma OffsetInUnitInterval(a: real, b: real)
    requires Straddles(a, b)
    ensures 0.0 <= GetOffset(a, b) <= 1.0
  {
    var t := GetOffset(a, b);
    var d := if a <= 0.0 then b - a else a - b;
    assert d > 0.0;
    if a <= 0.0 {
      assert t * d == -a && (1.0 - t) * d == b;
    } else {
      assert t * d == a && (1.0 - t) * d == -b;
    }
    FactorNonNegative(t, d);
    FactorNonNegative(1.0 - t, d);
  }

  lemma FactorNonNegative(x: real, d: real)
    requires d > 0.0 && x * d >= 0.0
    ensures x >= 0.0
  {
  }

  /** Interpolating by a fraction stays between the two ends. */
  lemma InterpolateBetween(a: real, b: real, t: real)
    requires 0.0 <= t <= 1.0
    ensures Min(a, b) <= Interpolate(a, b, t) <= Max(a, b)
  {
    var d := if a <= b then b - a else a - b;
    MulNonNegative(t, d);
    MulNonNegative(1.0 - t, d);
    assert (1.0 - t) * d == d - t * d;
    assert Interpolate(a, b, t) == a + t * (b - a);
  }

  lemma MulNonNegative(x: real, y: real)
    requires x >= 0.0 && y >= 0.0
    ensures x * y >= 0.0
  {
  }

  /** The vertex placed on an edge whose end values straddle zero lies on
      the segment between the edge's two corners. */
  lemma CrossingOnSegment(p: Point, q: Point, a: real, b: real)
    requires Straddles(a, b)
    ensures Between(p, q, Lerp(p, q, GetOffset(a, b)))
  {
    var t := GetOffset(a, b);
    OffsetInUnitInterval(a, b);
    InterpolateBetween(p.x, q.x, t);
    InterpolateBetween(p.y, q.y, t);
    InterpolateBetween(p.z, q.z, t);
  }
}

=== FILE: layers.dfy ===
/** The two-layer sample cache: a z-slice of the field is held as a
    row-major buffer of size*size samples, and the extractor keeps only the
    current slice and the next one. */
module Layers {

  /** The distance field being meshed, sampled at normalised coordinates. */
  type Field = (real, real, real) -> real

  /** Normalised coordinate of grid index `n`, scaled by 1/(size-1). */
  function Coord(n: nat, oneOverSize: real): real {
    n as real * oneOverSize
  }

  /** Row-major position of grid point (x, y) in a layer of width `size`. */
  function LayerIndex(size: nat, x: nat, y: nat): nat {
    y * size + x
  }

  /** The slice of `field` at normalised depth `zc`: the reference for what
      a layer must hold once it has been filled. */
  function Slice(field: Field, size: nat, oneOverSize: real, zc: real): (layer: seq<real>)
    ensures |layer| == size * size
  {
    seq(size * size, k requires 0 <= k < size * size =>
      field(Coord(k % size, oneOverSize), Coord(k / size, oneOverSize), zc))
  }

  /** Multiplication by a natural number is monotone. */
  lemma MulMonotone(a: nat, b: nat, c: nat)
    requires a <= b
    ensures a * c <= b * c
    decreases b - a
  {
    if a < b {
      MulMonotone(a, b - 1, c);
      assert (b - 1) * c + c == b * c;
    }
  }

  /** Row-major addressing is invertible: position y*size+x has column x and row y. */
  lemma RowMajor(size: nat, x: nat, y: nat)
    requires x < size
    ensures (y * size + x) / size == y
    ensures (y * size + x) % size == x
  {
    var k := y * size + x;
    var q, r := k / size, k % size;
    assert q * size + r == k;
    assert (y + 1) * size == y * size + size;
    assert (q + 1) * size == q * size + size;
    if q > y {
      MulMonotone(y + 1, q, size);
    } else if q < y {
      MulMonotone(q + 1, y, size);
    }
  }

  /** Every position of a layer splits into the row k/size and the column k%size. */
  lemma Decompose(size: nat, k: nat)
    requires k < size * size
    ensures k / size < size && k % size < size
    ensures LayerIndex(size, 0, k / size) + k % size == k
  {
    assert size > 0;
    assert (k / size) * size + k % size == k;
    if k / size >= size {
      MulMonotone(size, k / size, size);
    }
  }

  /** Row `y` of a layer starts at y*size and ends within the layer. */
  lemma RowInBounds(size: nat, y: nat)
    requires y < size
    ensures LayerIndex(size, 0, y) + size <= size * size
  {
    MulMonotone(y + 1, size, size);
    assert (y + 1) * size == y * size + size;
  }

  /** Rows are disjoint: every position of an earlier row lies before a later row. */
  lemma RowsDisjoint(size: nat, r: nat, y: nat, x: nat)
    requires r < y && x < size
    ensures LayerIndex(size, 0, r) + x < LayerIndex(size, 0, y)
  {
    MulMonotone(r + 1, y, size);
    assert (r + 1) * size == r * size + size;
  }

  /** Each sample of a slice is the field at that grid point. */
  lemma SliceAt(field: Field, size: nat, oneOverSize: real, zc: real, x: nat, y: nat)
    requires x < size && y < size
    ensures LayerIndex(size, x, y) < size * size
    ensures Slice(field, size, oneOverSize, zc)[LayerIndex(size, x, y)]
         == field(Coord(x, oneOverSize), Coord(y, oneOverSize), zc)
  {
    RowInBounds(size, y);
    RowMajor(size, x, y);
  }

  /** The reads of the corner gather stay inside the layer: a cube origin
      at most size-2 on each axis, moved by a 0/1 corner offset, is still a
      grid point. */
  lemma CornerReadInBounds(size: nat, x: nat, y: nat, dx: nat, dy: nat)
    requires size >= 2 && x <= size - 2 && y <= size - 2
    requires dx <= 1 && dy <= 1
    ensures LayerIndex(size, x + dx, y + dy) < size * size
  {
    RowInBounds(size, y + dy);
  }

  /** Row `y` of `layer` holds the field along grid row y at depth `zc`. */
  ghost predicate RowFilled(layer: seq<real>, field: Field, size: nat, oneOverSize: real, zc: real, y: nat) {
    && LayerIndex(size, 0, y) + size <= |layer|
    && forall x :: 0 <= x < size ==>
         layer[LayerIndex(size, 0, y) + x] == field(Coord(x, oneOverSize), Coord(y, oneOverSize), zc)
  }

  /** Overwrites every sample of `layer`, row by row, with the field at
      depth `zc`. */
  method FillLayer(layer: seq<real>, field: Field, size: nat, oneOverSize: real, zc: real)
    returns (filled: seq<real>)
    requires |layer| == size * size
    ensures filled == Slice(field, size, oneOverSize, zc)
  {
    filled := layer;
    for y := 0 to size
      invariant |filled| == size * size
      invariant forall r :: 0 <= r < y ==> RowFilled(filled, field, size, oneOverSize, zc, r)
    {
      RowInBounds(size, y);
      ghost var before := filled;
      filled := FillRow(filled, field, size, oneOverSize, zc, y);
      forall r | 0 <= r < y
        ensures RowFilled(filled, field, size, oneOverSize, zc, r)
      {
        assert RowFilled(before, field, size, oneOverSize, zc, r);
        forall k | LayerIndex(size, 0, r) <= k < LayerIndex(size, 0, r) + size
          ensures filled[k] == before[k]
        {
          RowsDisjoint(size, r, y, k - LayerIndex(size, 0, r));
        }
      }
    }
    forall k | 0 <= k < size * size
      ensures filled[k] == Slice(field, size, oneOverSize, zc)[k]
    {
      Decompose(size, k);
      assert RowFilled(filled, field, size, oneOverSize, zc, k / size);
    }
  }

  /** Overwrites row `y` of `layer` with the field along that row, leaving
      every other sample as it was. */
  method FillRow(layer: seq<real>, field: Field, size: nat, oneOverSize: real, zc: real, y: nat)
    returns (filled: seq<real>)
    requires LayerIndex(size, 0, y) + size <= |layer|
    ensures |filled| == |layer|
    ensures forall k :: 0 <= k < |layer| && !(LayerIndex(size, 0, y) <= k < LayerIndex(size, 0, y) + size) ==>
      filled[k] == layer[k]
    ensures RowFilled(filled, field, size, oneOverSize, zc, y)
  {
    var row := LayerIndex(size, 0, y);
    filled := layer;
    for x := 0 to size
      invariant |filled| == |layer|
      invariant forall k :: 0 <= k < |layer| && !(row <= k < row + x) ==> filled[k] == layer[k]
      invariant forall i :: 0 <= i < x ==> filled[row + i] == field(Coord(i, oneOverSize), Coord(y, oneOverSize), zc)
    {
      filled := filled[row + x := field(Coord(x, oneOverSize), Coord(y, oneOverSize), zc)];
    }
  }
}

=== FILE: marching_cubes.dfy ===
/** The extractor: sweeps the grid slab by slab, keeping two sampled
    layers, marches every cube of the slab, and tells the index cache when
    it moves on to the next cell, row and layer. */
module MarchingCubes {
  import opened MarchingCubesTables
  import opened Interpolation
  import opened Layers
  import opened IndexCache
  import opened Classify
  import opened Cube

  /** An extractor for a grid of `size` samples per axis and its two
      layer buffers (layers[0] and layers[1] in the source). */
  datatype MarchingCubes = MarchingCubes(size: nat, layer0: seq<real>, layer1: seq<real>)
  {
    predicate Valid() {
      |layer0| == size * size && |layer1| == size * size
    }
  }

  /** A new extractor with two zero-filled layers of size*size samples. */
  function New(size: nat): (mc: MarchingCubes)
    ensures mc.size == size && mc.Valid()
    ensures forall k :: 0 <= k < size * size ==> mc.layer0[k] == 0.0 && mc.layer1[k] == 0.0
  {
    MarchingCubes(size, seq(size * size, _ => 0.0), seq(size * size, _ => 0.0))
  }

  /** How many `advance_cell`, `advance_row` and `advance_layer` calls were made. */
  datatype Counts = Counts(cells: nat, rows: nat, layers: nat)

  /** How many times each of the three advance calls appears in a log. */
  function Tally(log: seq<Call>): Counts {
    if |log| == 0 then Counts(0, 0, 0)
    else
      var before, last := Tally(log[..|log| - 1]), log[|log| - 1];
      Counts(before.cells + (if last.AdvanceCell? then 1 else 0),
             before.rows + (if last.AdvanceRow? then 1 else 0),
             before.layers + (if last.AdvanceLayer? then 1 else 0))
  }

  /** Calls made while marching one cube leave the advance tally alone. */
  lemma {:induction false} CubeCallsKeepTally(a: seq<Call>, b: seq<Call>, x: nat, y: nat)
    requires |a| <= |b| && b[..|a|] == a && CubeCalls(b[|a|..], x, y)
    ensures Tally(b) == Tally(a)
    decreases |b|
  {
    if |b| == |a| {
      assert b == b[..|a|];
    } else {
      var shorter := b[..|b| - 1];
      assert shorter[..|a|] == a;
      assert shorter[|a|..] == b[|a|..][..|b| - 1 - |a|];
      assert b[|b| - 1] == b[|a|..][|b| - 1 - |a|];
      assert b[|b| - 1].Get? || b[|b| - 1].Put?;
      CubeCallsKeepTally(a, shorter, x, y);
    }
  }

  /** Appending one call adds one to that call's own tally, if it is an advance. */
  lemma TallySnoc(log: seq<Call>, call: Call)
    ensures Tally(log + [call]) == Counts(Tally(log).cells + (if call.AdvanceCell? then 1 else 0),
                                          Tally(log).rows + (if call.AdvanceRow? then 1 else 0),
                                          Tally(log).layers + (if call.AdvanceLayer? then 1 else 0))
  {
    assert (log + [call])[..|log|] == log;
  }

  /** An advance call leaves the bookkeeping alone: it records no index. */
  lemma AdvanceKeepsBookkeeping(s: Sweep, call: Call, out: Emitter, v0: seq<real>, i0: seq<nat>, cache: Lookup)
    requires call.AdvanceCell? || call.AdvanceRow? || call.AdvanceLayer?
    requires Bookkept(s, out, v0, i0, cache)
    ensures Bookkept(s.(log := s.log + [call]), out, v0, i0, cache)
  {
    PutsSnoc(s.log, call);
  }

  /** The position of corner `i` of the cube at origin (x, y, z): the
      origin moved by the corner's offset, scaled to the unit cube. */
  function CornerPoint(t: Tables, oneOverSize: real, x: nat, y: nat, z: nat, i: nat): Point
    requires t.Valid() && i < 8
  {
    var o := t.corners[i];
    Point(Coord(x + o.dx, oneOverSize), Coord(y + o.dy, oneOverSize), Coord(z + o.dz, oneOverSize))
  }

  /** The field's value at corner `i` of the cube at origin (x, y, z). */
  function CornerValue(field: Field, t: Tables, oneOverSize: real, x: nat, y: nat, z: nat, i: nat): real
    requires t.Valid() && i < 8
  {
    var p := CornerPoint(t, oneOverSize, x, y, z, i);
    field(p.x, p.y, p.z)
  }

  /** The cube at origin (x, y, z) as read straight from the field: its
      corner positions and the field's values there. */
  function CubeAt(field: Field, t: Tables, oneOverSize: real, x: nat, y: nat, z: nat): (c: Cube)
    requires t.Valid()
    ensures c.Valid()
  {
    Cube(x, y, seq(8, i requires 0 <= i < 8 => CornerPoint(t, oneOverSize, x, y, z, i)),
               seq(8, i requires 0 <= i < 8 => CornerValue(field, t, oneOverSize, x, y, z, i)))
  }

  /** The cube index of the cube at origin (x, y, z) of the field. */
  function ClassOf(field: Field, t: Tables, oneOverSize: real, x: nat, y: nat, z: nat): bv8
    requires t.Valid()
  {
    IndexOf(CubeAt(field, t, oneOverSize, x, y, z).values)
  }

  /** The edge ids the cube at origin (x, y, z) lists: the triangles of its
      class's row of the triangle table, three edge ids each. */
  function CubeEdges(field: Field, t: Tables, oneOverSize: real, x: nat, y: nat, z: nat): (edges: seq<int>)
    requires t.Valid()
    ensures EdgeIds(edges)
  {
    var row := t.triangles[ClassOf(field, t, oneOverSize, x, y, z) as nat];
    ListedEdgeIds(row);
    row[..3 * TriangleCount(row)]
  }

  /** The listed triangles of a valid row hold edge ids only. */
  lemma ListedEdgeIds(row: seq<int>)
    requires RowValid(row)
    ensures EdgeIds(row[..3 * TriangleCount(row)])
  {
    forall k | 0 <= k < 3 * TriangleCount(row)
      ensures 0 <= row[k] < 12
    {
      var i := k / 3;
      assert k == 3 * i + k % 3;
      assert Slot(row, i, 0) >= 0;
    }
  }

  /** The reference for marching one cube: its listed edge ids visited in
      order on the cube read from the field. */
  function MarchedCube(s: Sweep, field: Field, t: Tables, oneOverSize: real, x: nat, y: nat, z: nat,
                       cache: Lookup, out: Emitter): Sweep
    requires t.Valid()
  {
    VisitEdges(s, CubeAt(field, t, oneOverSize, x, y, z), CubeEdges(field, t, oneOverSize, x, y, z), t, cache, out)
  }

  /** The reference for one pass of the x loop's body: march the cube, then
      call `advance_cell`. */
  function SweptCell(s: Sweep, field: Field, t: Tables, oneOverSize: real, x: nat, y: nat, z: nat,
                     cache: Lookup, out: Emitter): Sweep
    requires t.Valid()
  {
    var m := MarchedCube(s, field, t, oneOverSize, x, y, z, cache, out);
    m.(log := m.log + [AdvanceCell])
  }

  /** The reference for the x loop from column x on: the cubes x, ...,
      size-2 of row y of slab z, in order. */
  function SweptRow(s: Sweep, field: Field, t: Tables, size: nat, oneOverSize: real, x: nat, y: nat, z: nat,
                    cache: Lookup, out: Emitter): Sweep
    requires t.Valid()
    decreases size - x, 1
  {
    if x + 1 >= size then s else SweptCellThenRow(s, field, t, size, oneOverSize, x, y, z, cache, out)
  }

  /** The x loop from a column that holds a cube: that cube, then the rest of the row. */
  function SweptCellThenRow(s: Sweep, field: Field, t: Tables, size: nat, oneOverSize: real, x: nat, y: nat, z: nat,
                            cache: Lookup, out: Emitter): Sweep
    requires t.Valid() && x + 1 < size
    decreases size - x, 0
  {
    SweptRow(SweptCell(s, field, t, oneOverSize, x, y, z, cache, out), field, t, size, oneOverSize, x + 1, y, z, cache, out)
  }

  /** `r` is the x loop's result from `s` and column x on. */
  ghost predicate RowSwept(s: Sweep, r: Sweep, field: Field, t: Tables, size: nat, oneOverSize: real,
                           x: nat, y: nat, z: nat, cache: Lookup, out: Emitter)
    requires t.Valid()
  {
    r == SweptRow(s, field, t, size, oneOverSize, x, y, z, cache, out)
  }

  /** Marching cube x and then sweeping the rest of the row sweeps the row from x. */
  lemma RowSweptStep(s: Sweep, r: Sweep, field: Field, t: Tables, size: nat, oneOverSize: real,
                     x: nat, y: nat, z: nat, cache: Lookup, out: Emitter)
    requires t.Valid() && x + 1 < size
    requires RowSwept(SweptCell(s, field, t, oneOverSize, x, y, z, cache, out), r, field, t, size, oneOverSize, x + 1, y, z, cache, out)
    ensures RowSwept(s, r, field, t, size, oneOverSize, x, y, z, cache, out)
  {
  }

  /** The reference for the y loop from row y on: the rows y, ..., size-2 of
      slab z, each followed by `advance_row`. */
  function SweptSlab(s: Sweep, field: Field, t: Tables, size: nat, oneOverSize: real, y: nat, z: nat,
                     cache: Lookup, out: Emitter): Sweep
    requires t.Valid()
    decreases size - y, 1
  {
    if y + 1 >= size then s else SweptRowThenSlab(s, field, t, size, oneOverSize, y, z, cache, out)
  }

  /** The y loop from a row that holds cubes: that row and its `advance_row`,
      then the rest of the slab. */
  function SweptRowThenSlab(s: Sweep, field: Field, t: Tables, size: nat, oneOverSize: real, y: nat, z: nat,
                            cache: Lookup, out: Emitter): Sweep
    requires t.Valid() && y + 1 < size
    decreases size - y, 0
  {
    var row := SweptRow(s, field, t, size, oneOverSize, 0, y, z, cache, out);
    SweptSlab(row.(log := row.log + [AdvanceRow]), field, t, size, oneOverSize, y + 1, z, cache, out)
  }

  /** `r` is the y loop's result from `s` and row y on. */
  ghost predicate SlabSwept(s: Sweep, r: Sweep, field: Field, t: Tables, size: nat, oneOverSize: real,
                            y: nat, z: nat, cache: Lookup, out: Emitter)
    requires t.Valid()
  {
    r == SweptSlab(s, field, t, size, oneOverSize, y, z, cache, out)
  }

  /** Sweeping row y, calling `advance_row`, and then sweeping the rest of
      the slab sweeps the slab from row y. */
  lemma SlabSweptStep(s: Sweep, row: Sweep, r: Sweep, field: Field, t: Tables, size: nat, oneOverSize: real,
                      y: nat, z: nat, cache: Lookup, out: Emitter)
    requires t.Valid() && y + 1 < size
    requires RowSwept(s, row, field, t, size, oneOverSize, 0, y, z, cache, out)
    requires SlabSwept(row.(log := row.log + [AdvanceRow]), r, field, t, size, oneOverSize, y + 1, z, cache, out)
    ensures SlabSwept(s, r, field, t, size, oneOverSize, y, z, cache, out)
  {
  }

  /** The reference for one pass of the z loop: slab z, then `advance_layer`. */
  function SweptLayer(s: Sweep, field: Field, t: Tables, size: nat, oneOverSize: real, z: nat,
                      cache: Lookup, out: Emitter): Sweep
    requires t.Valid()
  {
    var slab := SweptSlab(s, field, t, size, oneOverSize, 0, z, cache, out);
    slab.(log := slab.log + [AdvanceLayer])
  }

  /** The reference for the z loop from slab z on: slabs z, ..., size-1. */
  function SweptLayers(s: Sweep, field: Field, t: Tables, size: nat, oneOverSize: real, z: nat,
                       cache: Lookup, out: Emitter): Sweep
    requires t.Valid()
    decreases size - z
  {
    if z >= size then s
    else SweptLayers(SweptLayer(s, field, t, size, oneOverSize, z, cache, out), field, t, size, oneOverSize, z + 1, cache, out)
  }

  /** The reference for a whole extraction, stated on the field alone: the
      counter starts at 0, the log empty, and the slabs z = 0, ..., size-1
      are swept in order, each row by row and each row cube by cube. */
  function SweptGrid(field: Field, t: Tables, size: nat, cache: Lookup, out: Emitter,
                     vertices: seq<real>, indices: seq<nat>): Sweep
    requires t.Valid() && size >= 2
  {
    SweptLayers(Sweep(0, vertices, indices, []), field, t, size, 1.0 / ((size - 1) as real), 0, cache, out)
  }

  /** `ci` classifies the cube at origin (x, y, z): bit i is set iff the
      field at corner i is inside. */
  predicate Classifies(ci: bv8, field: Field, t: Tables, oneOverSize: real, x: nat, y: nat, z: nat)
    requires t.Valid()
  {
    forall i :: 0 <= i < 8 ==> (Bit(ci, i) <==> Inside(CornerValue(field, t, oneOverSize, x, y, z, i)))
  }

  /** Going from `s` to `r` marched the cube at origin (x, y, z) of the
      field: for the cube index that classifies its corners, the walk pushed
      three indices per triangle the table row lists, and asked the cache
      about exactly that row's edge ids, in order. */
  ghost predicate MarchedAt(s: Sweep, r: Sweep, field: Field, t: Tables, oneOverSize: real, x: nat, y: nat, z: nat)
    requires t.Valid()
  {
    && |s.log| <= |r.log|
    && exists ci: bv8 :: Classifies(ci, field, t, oneOverSize, x, y, z)
         && |r.indices| == |s.indices| + 3 * TriangleCount(t.triangles[ci as nat])
         && Asked(r.log[|s.log|..]) == t.triangles[ci as nat][..3 * TriangleCount(t.triangles[ci as nat])]
  }

  /** The cube at origin (x, y, z): gather its corners, classify them, and
      walk the triangle-table row of the resulting cube index. The layers
      hold the field's slices at z and z+1. */
  method MarchAt(s: Sweep, layer0: seq<real>, layer1: seq<real>, ghost field: Field, size: nat, oneOverSize: real,
                 x: nat, y: nat, z: nat, t: Tables, cache: Lookup, out: Emitter, ghost v0: seq<real>, ghost i0: seq<nat>)
    returns (r: Sweep)
    requires t.Valid() && size >= 2 && x <= size - 2 && y <= size - 2
    requires layer0 == Slice(field, size, oneOverSize, Coord(z, oneOverSize))
    requires layer1 == Slice(field, size, oneOverSize, Coord(z + 1, oneOverSize))
    ensures r == MarchedCube(s, field, t, oneOverSize, x, y, z, cache, out)
    ensures Grows(s, r, out, x, y)
    ensures MarchedAt(s, r, field, t, oneOverSize, x, y, z)
    ensures |r.indices| <= |s.indices| + 3 * MaxTriangles
    ensures WholeTriangles(s, i0) ==> WholeTriangles(r, i0)
    ensures Bookkept(s, out, v0, i0, cache) ==> Bookkept(r, out, v0, i0, cache)
  {
    var c := GatherCorners(layer0, layer1, field, size, oneOverSize, x, y, z, t);
    GatheredCube(c, field, t, oneOverSize, x, y, z);
    var cubeIndex := CubeIndex(c.values);
    ClassifiesCorners(c, cubeIndex, field, t, oneOverSize, x, y, z);
    r := MarchCube(s, c, cubeIndex as nat, t, cache, out, v0, i0);
    MarchedWith(s, r, cubeIndex, field, t, oneOverSize, x, y, z);
  }

  /** Corners read with the right positions and the field's values there
      make up the cube read straight from the field. */
  lemma GatheredCube(c: Cube, field: Field, t: Tables, oneOverSize: real, x: nat, y: nat, z: nat)
    requires t.Valid() && c.Valid() && c.x == x && c.y == y
    requires forall i :: 0 <= i < 8 ==>
      c.positions[i] == Point(Coord(x + t.corners[i].dx, oneOverSize),
                              Coord(y + t.corners[i].dy, oneOverSize),
                              Coord(z + t.corners[i].dz, oneOverSize))
    requires forall i :: 0 <= i < 8 ==> c.values[i] == field(c.positions[i].x, c.positions[i].y, c.positions[i].z)
    ensures c == CubeAt(field, t, oneOverSize, x, y, z)
  {
    var d := CubeAt(field, t, oneOverSize, x, y, z);
    assert c.positions == d.positions;
    assert c.values == d.values;
  }

  /** Exactly one cube index classifies a cube: its class. */
  lemma ClassOfClassifies(ci: bv8, field: Field, t: Tables, oneOverSize: real, x: nat, y: nat, z: nat)
    requires t.Valid()
    ensures Classifies(ci, field, t, oneOverSize, x, y, z) <==> ci == ClassOf(field, t, oneOverSize, x, y, z)
  {
    var c := CubeAt(field, t, oneOverSize, x, y, z);
    var own := ClassOf(field, t, oneOverSize, x, y, z);
    assert forall i :: 0 <= i < 8 ==> (Bit(own, i) <==> Inside(CornerValue(field, t, oneOverSize, x, y, z, i)));
    if Classifies(ci, field, t, oneOverSize, x, y, z) {
      BitsAgree(ci, own);
    }
  }

  /** The index computed from the gathered corner values classifies the cube. */
  lemma ClassifiesCorners(c: Cube, ci: bv8, field: Field, t: Tables, oneOverSize: real, x: nat, y: nat, z: nat)
    requires t.Valid() && c.Valid()
    requires forall i :: 0 <= i < 8 ==>
      c.positions[i] == Point(Coord(x + t.corners[i].dx, oneOverSize),
                              Coord(y + t.corners[i].dy, oneOverSize),
                              Coord(z + t.corners[i].dz, oneOverSize))
    requires forall i :: 0 <= i < 8 ==> c.values[i] == field(c.positions[i].x, c.positions[i].y, c.positions[i].z)
    requires forall i :: 0 <= i < 8 ==> (Bit(ci, i) <==> Inside(c.values[i]))
    ensures Classifies(ci, field, t, oneOverSize, x, y, z)
  {
  }

  /** A walk of the row of a classifying index is a march of the cube. */
  lemma MarchedWith(s: Sweep, r: Sweep, ci: bv8, field: Field, t: Tables, oneOverSize: real, x: nat, y: nat, z: nat)
    requires t.Valid() && Classifies(ci, field, t, oneOverSize, x, y, z)
    requires |s.log| <= |r.log|
    requires |r.indices| == |s.indices| + 3 * TriangleCount(t.triangles[ci as nat])
    requires Asked(r.log[|s.log|..]) == t.triangles[ci as nat][..3 * TriangleCount(t.triangles[ci as nat])]
    ensures MarchedAt(s, r, field, t, oneOverSize, x, y, z)
  {
  }

  /** Under the table convention that rows 0 and 255 are empty, a cube whose
      eight corners are all outside, or all inside, pushes no index and asks
      the cache about no edge. */
  lemma UniformCubeEmitsNothing(s: Sweep, r: Sweep, field: Field, t: Tables, oneOverSize: real, x: nat, y: nat, z: nat)
    requires t.Valid() && t.EmptyAtExtremes()
    requires MarchedAt(s, r, field, t, oneOverSize, x, y, z)
    requires || (forall i :: 0 <= i < 8 ==> !Inside(CornerValue(field, t, oneOverSize, x, y, z, i)))
             || (forall i :: 0 <= i < 8 ==> Inside(CornerValue(field, t, oneOverSize, x, y, z, i)))
    ensures |r.indices| == |s.indices|
    ensures Asked(r.log[|s.log|..]) == []
  {
    var ci: bv8 :| Classifies(ci, field, t, oneOverSize, x, y, z)
         && |r.indices| == |s.indices| + 3 * TriangleCount(t.triangles[ci as nat])
         && Asked(r.log[|s.log|..]) == t.triangles[ci as nat][..3 * TriangleCount(t.triangles[ci as nat])];
    BitsDetermineIndex(ci);
  }

  /** The same convention stated on the reference: marching a cube whose
      corners are all outside, or all inside, changes nothing at all: no
      cache call, no index, no vertex. */
  lemma UniformCubeIsSkipped(s: Sweep, field: Field, t: Tables, oneOverSize: real, x: nat, y: nat, z: nat,
                             cache: Lookup, out: Emitter)
    requires t.Valid() && t.EmptyAtExtremes()
    requires || (forall i :: 0 <= i < 8 ==> !Inside(CornerValue(field, t, oneOverSize, x, y, z, i)))
             || (forall i :: 0 <= i < 8 ==> Inside(CornerValue(field, t, oneOverSize, x, y, z, i)))
    ensures MarchedCube(s, field, t, oneOverSize, x, y, z, cache, out) == s
  {
    var ci := ClassOf(field, t, oneOverSize, x, y, z);
    ClassOfClassifies(ci, field, t, oneOverSize, x, y, z);
    BitsDetermineIndex(ci);
    assert CubeEdges(field, t, oneOverSize, x, y, z) == [];
  }

  /** The body of the x loop: march the cube at origin (x, y, z), then call
      `advance_cell`. */
  method SweepCell(s: Sweep, layer0: seq<real>, layer1: seq<real>, ghost field: Field, size: nat, oneOverSize: real,
                   x: nat, y: nat, z: nat, t: Tables, cache: Lookup, out: Emitter, ghost v0: seq<real>, ghost i0: seq<nat>)
    returns (r: Sweep)
    requires t.Valid() && size >= 2 && x <= size - 2 && y <= size - 2
    requires layer0 == Slice(field, size, oneOverSize, Coord(z, oneOverSize))
    requires layer1 == Slice(field, size, oneOverSize, Coord(z + 1, oneOverSize))
    requires Bookkept(s, out, v0, i0, cache) && WholeTriangles(s, i0)
    ensures r == SweptCell(s, field, t, oneOverSize, x, y, z, cache, out)
    ensures MarchedAt(s, r, field, t, oneOverSize, x, y, z)
    ensures |s.indices| <= |r.indices| <= |s.indices| + 3 * MaxTriangles
    ensures WholeTriangles(r, i0)
    ensures Tally(r.log) == Counts(Tally(s.log).cells + 1, Tally(s.log).rows, Tally(s.log).layers)
    ensures Bookkept(r, out, v0, i0, cache)
  {
    var marched := MarchAt(s, layer0, layer1, field, size, oneOverSize, x, y, z, t, cache, out, v0, i0);
    r := marched.(log := marched.log + [AdvanceCell]);
    AdvanceCellStep(s, marched, out, v0, i0, cache, x, y);
    AdvanceAsksNothing(s, marched, r, field, t, oneOverSize, x, y, z);
  }

  /** Calling `advance_cell` after a cube's calls counts one more cell and
      keeps the bookkeeping and the whole triangles. */
  lemma AdvanceCellStep(s: Sweep, marched: Sweep, out: Emitter, v0: seq<real>, i0: seq<nat>, cache: Lookup, x: nat, y: nat)
    requires Grows(s, marched, out, x, y)
    requires Bookkept(marched, out, v0, i0, cache) && WholeTriangles(marched, i0)
    ensures var r := marched.(log := marched.log + [AdvanceCell]);
      && Bookkept(r, out, v0, i0, cache) && WholeTriangles(r, i0)
      && Tally(r.log) == Counts(Tally(s.log).cells + 1, Tally(s.log).rows, Tally(s.log).layers)
  {
    CubeCallsKeepTally(s.log, marched.log, x, y);
    AdvanceKeepsBookkeeping(marched, AdvanceCell, out, v0, i0, cache);
    TallySnoc(marched.log, AdvanceCell);
  }

  /** Calling `advance_row` after a row's cubes counts one more row, after
      the row's size-1 cells, and keeps the bookkeeping and the whole triangles. */
  lemma AdvanceRowStep(s: Sweep, row: Sweep, r: Sweep, out: Emitter, v0: seq<real>, i0: seq<nat>, cache: Lookup, size: nat)
    requires size >= 1 && r == row.(log := row.log + [AdvanceRow])
    requires Tally(row.log) == Counts(Tally(s.log).cells + (size - 1), Tally(s.log).rows, Tally(s.log).layers)
    requires Bookkept(row, out, v0, i0, cache) && WholeTriangles(row, i0) && |s.indices| <= |row.indices|
    ensures Bookkept(r, out, v0, i0, cache) && WholeTriangles(r, i0) && |s.indices| <= |r.indices|
    ensures Tally(r.log) == Counts(Tally(s.log).cells + (size - 1), Tally(s.log).rows + 1, Tally(s.log).layers)
  {
    AdvanceKeepsBookkeeping(row, AdvanceRow, out, v0, i0, cache);
    TallySnoc(row.log, AdvanceRow);
  }

  /** A row of size-1 cells and its `advance_row`, followed by the rest of
      the slab, count as the slab from that row on. */
  lemma SlabTallyStep(a: Counts, b: Counts, c: Counts, size: nat, y: nat)
    requires y + 1 < size
    requires b == Counts(a.cells + (size - 1), a.rows + 1, a.layers)
    requires c == Counts(b.cells + Times(size - 1 - (y + 1), size - 1), b.rows + (size - 1 - (y + 1)), b.layers)
    ensures c == Counts(a.cells + Times(size - 1 - y, size - 1), a.rows + (size - 1 - y), a.layers)
  {
  }

  /** Appending an advance call to a marched cube's log keeps it marched. */
  lemma AdvanceAsksNothing(s: Sweep, marched: Sweep, r: Sweep, field: Field, t: Tables, oneOverSize: real,
                           x: nat, y: nat, z: nat)
    requires t.Valid() && MarchedAt(s, marched, field, t, oneOverSize, x, y, z)
    requires r == marched.(log := marched.log + [AdvanceCell])
    ensures MarchedAt(s, r, field, t, oneOverSize, x, y, z)
  {
    assert r.log[|s.log|..] == marched.log[|s.log|..] + [AdvanceCell];
    AskedSnoc(marched.log[|s.log|..], AdvanceCell);
  }

  /** The x loop from column x on: marches the cubes x, ..., size-2 of row y
      of slab z, calling `advance_cell` after each. */
  method SweepRow(s: Sweep, layer0: seq<real>, layer1: seq<real>, ghost field: Field, size: nat, oneOverSize: real,
                  x: nat, y: nat, z: nat, t: Tables, cache: Lookup, out: Emitter, ghost v0: seq<real>, ghost i0: seq<nat>)
    returns (r: Sweep)
    requires t.Valid() && size >= 2 && x <= size - 1 && y <= size - 2
    requires layer0 == Slice(field, size, oneOverSize, Coord(z, oneOverSize))
    requires layer1 == Slice(field, size, oneOverSize, Coord(z + 1, oneOverSize))
    requires Bookkept(s, out, v0, i0, cache) && WholeTriangles(s, i0)
    ensures RowSwept(s, r, field, t, size, oneOverSize, x, y, z, cache, out)
    ensures WholeTriangles(r, i0) && |s.indices| <= |r.indices|
    ensures Tally(r.log) == Counts(Tally(s.log).cells + (size - 1 - x), Tally(s.log).rows, Tally(s.log).layers)
    ensures Bookkept(r, out, v0, i0, cache)
    decreases size - x
  {
    if x == size - 1 {
      return s;
    }
    var cell := SweepCell(s, layer0, layer1, field, size, oneOverSize, x, y, z, t, cache, out, v0, i0);
    r := SweepRow(cell, layer0, layer1, field, size, oneOverSize, x + 1, y, z, t, cache, out, v0, i0);
    RowSweptStep(s, r, field, t, size, oneOverSize, x, y, z, cache, out);
  }

  /** The y loop from row y on: sweeps the rows y, ..., size-2 of slab z,
      calling `advance_row` after each. */
  method SweepSlab(s: Sweep, layer0: seq<real>, layer1: seq<real>, ghost field: Field, size: nat, oneOverSize: real,
                   y: nat, z: nat, t: Tables, cache: Lookup, out: Emitter, ghost v0: seq<real>, ghost i0: seq<nat>)
    returns (r: Sweep)
    requires t.Valid() && size >= 2 && y <= size - 1
    requires layer0 == Slice(field, size, oneOverSize, Coord(z, oneOverSize))
    requires layer1 == Slice(field, size, oneOverSize, Coord(z + 1, oneOverSize))
    requires Bookkept(s, out, v0, i0, cache) && WholeTriangles(s, i0)
    ensures SlabSwept(s, r, field, t, size, oneOverSize, y, z, cache, out)
    ensures WholeTriangles(r, i0) && |s.indices| <= |r.indices|
    ensures Tally(r.log) == Counts(Tally(s.log).cells + Times(size - 1 - y, size - 1), Tally(s.log).rows + (size - 1 - y), Tally(s.log).layers)
    ensures Bookkept(r, out, v0, i0, cache)
    decreases size - y
  {
    if y == size - 1 {
      return s;
    }
    var row := SweepRow(s, layer0, layer1, field, size, oneOverSize, 0, y, z, t, cache, out, v0, i0);
    var next := row.(log := row.log + [AdvanceRow]);
    AdvanceRowStep(s, row, next, out, v0, i0, cache, size);
    r := SweepSlab(next, layer0, layer1, field, size, oneOverSize, y + 1, z, t, cache, out, v0, i0);
    SlabTallyStep(Tally(s.log), Tally(next.log), Tally(r.log), size, y);
    SlabSweptStep(s, row, r, field, t, size, oneOverSize, y, z, cache, out);
  }

  /** One pass of the z loop: fill layer 1 with the slice at z+1, sweep the
      cubes of slab z, and call `advance_layer`. */
  method SweepLayer(s: Sweep, layer0: seq<real>, layer1: seq<real>, field: Field, size: nat, oneOverSize: real,
                    z: nat, t: Tables, cache: Lookup, out: Emitter, ghost v0: seq<real>, ghost i0: seq<nat>)
    returns (r: Sweep, filled: seq<real>)
    requires t.Valid() && size >= 2
    requires layer0 == Slice(field, size, oneOverSize, Coord(z, oneOverSize)) && |layer1| == size * size
    requires Bookkept(s, out, v0, i0, cache) && WholeTriangles(s, i0)
    requires Tally(s.log) == SlabTally(z, size - 1)
    ensures filled == Slice(field, size, oneOverSize, Coord(z + 1, oneOverSize))
    ensures r == SweptLayer(s, field, t, size, oneOverSize, z, cache, out)
    ensures WholeTriangles(r, i0) && |s.indices| <= |r.indices|
    ensures Tally(r.log) == SlabTally(z + 1, size - 1)
    ensures Bookkept(r, out, v0, i0, cache)
  {
    filled := FillLayer(layer1, field, size, oneOverSize, Coord(z + 1, oneOverSize));
    var slab := SweepSlab(s, layer0, filled, field, size, oneOverSize, 0, z, t, cache, out, v0, i0);
    AdvanceKeepsBookkeeping(slab, AdvanceLayer, out, v0, i0, cache);
    TallySnoc(slab.log, AdvanceLayer);
    r := slab.(log := slab.log + [AdvanceLayer]);
  }

  /** `n` groups of `m`, counted group by group as the loops count cubes. */
  function Times(n: nat, m: nat): nat {
    if n == 0 then 0 else Times(n - 1, m) + m
  }

  lemma {:induction false} TimesIsProduct(n: nat, m: nat)
    ensures Times(n, m) == n * m
  {
    if n > 0 {
      TimesIsProduct(n - 1, m);
      MulSucc(n - 1, m);
    }
  }

  /** The advance tally after `z` slabs of m*m cubes in m rows, slab by slab. */
  function SlabTally(z: nat, m: nat): Counts {
    if z == 0 then Counts(0, 0, 0)
    else
      var before := SlabTally(z - 1, m);
      Counts(before.cells + Times(m, m), before.rows + m, before.layers + 1)
  }

  lemma {:induction false} SlabTallyClosedForm(z: nat, m: nat)
    ensures SlabTally(z, m).cells == z * (m * m)
    ensures SlabTally(z, m).rows == z * m && SlabTally(z, m).layers == z
  {
    if z > 0 {
      SlabTallyClosedForm(z - 1, m);
      TimesIsProduct(m, m);
      MulSucc(z - 1, m * m);
      MulSucc(z - 1, m);
    }
  }

  lemma MulSucc(a: nat, b: nat)
    ensures (a + 1) * b == a * b + b
  {
  }

  /** The z loop runs `size` times, one more than there are slabs of
      cubes: the last pass samples layer 1 at z = size/(size-1), beyond the
      unit cube, and its cubes' upper corners sit there too. */
  lemma LastSlabBeyondUnitCube(size: nat)
    requires size >= 2
    ensures Coord(size - 1, 1.0 / ((size - 1) as real)) == 1.0
    ensures Coord(size, 1.0 / ((size - 1) as real)) > 1.0
  {
    var m := (size - 1) as real;
    assert Coord(size, 1.0 / m) == (m + 1.0) * (1.0 / m);
    assert (m + 1.0) * (1.0 / m) == m * (1.0 / m) + 1.0 / m;
  }

  /** The sweep shared by both public extractors. Layer 0 is filled with the
      slice at z = 0; then for each of `size` slabs z, layer 1 is filled with
      the slice at z+1, every cube of the slab is marched, `advance_layer`
      is called and the two layers swap roles. The vertex counter starts at
      0 and the cache starts empty, and both buffers are only appended to. */
  method ExtractImpl(mc: MarchingCubes, field: Field, t: Tables, cache: Lookup, out: Emitter,
                     vertices: seq<real>, indices: seq<nat>)
    returns (mc': MarchingCubes, vertices': seq<real>, indices': seq<nat>, calls: seq<Call>)
    requires t.Valid() && mc.Valid() && mc.size >= 2
    ensures mc'.size == mc.size && mc'.Valid()
    // Vertex indices are handed out as 0, 1, 2, ..., each recorded by one
    // put and each owning one group of Width reals.
    ensures Puts(calls) == Range(|Puts(calls)|)
    ensures |vertices'| == |vertices| + Span(out, |Puts(calls)|)
    ensures vertices'[..|vertices|] == vertices
    ensures forall k :: 0 <= k < |Puts(calls)| ==> NormalMatches(out, vertices', |vertices|, k)
    // Indices come in whole triangles and, with an honest cache, never
    // refer past the vertices this call emitted.
    ensures |indices| <= |indices'| && indices'[..|indices|] == indices
    ensures (|indices'| - |indices|) % 3 == 0
    ensures Honest(cache) ==> forall p :: |indices| <= p < |indices'| ==> indices'[p] < |Puts(calls)|
    // Shape of the sweep: size slabs of (size-1)^2 cubes.
    ensures Tally(calls).cells == mc.size * ((mc.size - 1) * (mc.size - 1))
    ensures Tally(calls).rows == mc.size * (mc.size - 1) && Tally(calls).layers == mc.size
    // After the last swap, layer 0 holds the extra slice at z = size/(size-1).
    ensures mc'.layer0 == Slice(field, mc.size, 1.0 / ((mc.size - 1) as real), Coord(mc.size, 1.0 / ((mc.size - 1) as real)))
    ensures mc'.layer1 == Slice(field, mc.size, 1.0 / ((mc.size - 1) as real), Coord(mc.size - 1, 1.0 / ((mc.size - 1) as real)))
    // The buffers and the call log are those of the reference sweep of the
    // field: every cube of the grid, in z, y, x order.
    ensures var g := SweptGrid(field, t, mc.size, cache, out, vertices, indices);
      vertices' == g.vertices && indices' == g.indices && calls == g.log
  {
    var size := mc.size;
    var oneOverSize := 1.0 / ((size - 1) as real);
    var layer0 := FillLayer(mc.layer0, field, size, oneOverSize, 0.0);
    assert Coord(0, oneOverSize) == 0.0;
    BookkeptAtStart(out, vertices, indices, cache);
    var s, layer1;
    s, layer0, layer1 := SweepLayers(Sweep(0, vertices, indices, []), layer0, mc.layer1, field, size, oneOverSize,
                                     0, t, cache, out, vertices, indices);
    SweptMeans(s, size, out, vertices, indices, cache);
    mc' := MarchingCubes(size, layer0, layer1);
    vertices', indices', calls := s.vertices, s.indices, s.log;
  }

  /** What the invariants of the finished sweep say about the buffers and
      the cache log. */
  lemma SweptMeans(s: Sweep, size: nat, out: Emitter, v0: seq<real>, i0: seq<nat>, cache: Lookup)
    requires size >= 1
    requires Bookkept(s, out, v0, i0, cache) && WholeTriangles(s, i0)
    requires Tally(s.log) == SlabTally(size, size - 1)
    ensures Puts(s.log) == Range(|Puts(s.log)|)
    ensures |s.vertices| == |v0| + Span(out, |Puts(s.log)|)
    ensures s.vertices[..|v0|] == v0
    ensures forall k :: 0 <= k < |Puts(s.log)| ==> NormalMatches(out, s.vertices, |v0|, k)
    ensures |i0| <= |s.indices| && s.indices[..|i0|] == i0
    ensures (|s.indices| - |i0|) % 3 == 0
    ensures Honest(cache) ==> forall p :: |i0| <= p < |s.indices| ==> s.indices[p] < |Puts(s.log)|
    ensures Tally(s.log).cells == size * ((size - 1) * (size - 1))
    ensures Tally(s.log).rows == size * (size - 1) && Tally(s.log).layers == size
  {
    BookkeptMeans(s, out, v0, i0, cache);
    TriplesAreMultiplesOfThree(|s.indices| - |i0|);
    SlabTallyClosedForm(size, size - 1);
  }

  /** The z loop from slab z on: passes z, ..., size-1, each followed by the
      swap of the two layers. */
  method SweepLayers(s: Sweep, layer0: seq<real>, layer1: seq<real>, field: Field, size: nat, oneOverSize: real,
                     z: nat, t: Tables, cache: Lookup, out: Emitter, ghost v0: seq<real>, ghost i0: seq<nat>)
    returns (r: Sweep, layer0': seq<real>, layer1': seq<real>)
    requires t.Valid() && size >= 2 && z <= size
    requires |layer0| == size * size && |layer1| == size * size
    requires layer0 == Slice(field, size, oneOverSize, Coord(z, oneOverSize))
    requires z > 0 ==> layer1 == Slice(field, size, oneOverSize, Coord(z - 1, oneOverSize))
    requires Bookkept(s, out, v0, i0, cache) && WholeTriangles(s, i0)
    requires Tally(s.log) == SlabTally(z, size - 1)
    ensures r == SweptLayers(s, field, t, size, oneOverSize, z, cache, out)
    ensures Bookkept(r, out, v0, i0, cache) && WholeTriangles(r, i0)
    ensures Tally(r.log) == SlabTally(size, size - 1)
    ensures layer0' == Slice(field, size, oneOverSize, Coord(size, oneOverSize))
    ensures layer1' == Slice(field, size, oneOverSize, Coord(size - 1, oneOverSize))
    decreases size - z
  {
    if z == size {
      return s, layer0, layer1;
    }
    var swept, next := SweepLayer(s, layer0, layer1, field, size, oneOverSize, z, t, cache, out, v0, i0);
    r, layer0', layer1' := SweepLayers(swept, next, layer0, field, size, oneOverSize, z + 1, t, cache, out, v0, i0);
  }

  /** Extracts a mesh as positions only: three reals per vertex. */
  method Extract(mc: MarchingCubes, field: Field, t: Tables, cache: Lookup,
                 vertices: seq<real>, indices: seq<nat>)
    returns (mc': MarchingCubes, vertices': seq<real>, indices': seq<nat>, calls: seq<Call>)
    requires t.Valid() && mc.Valid() && mc.size >= 2
    ensures mc'.size == mc.size && mc'.Valid()
    ensures Puts(calls) == Range(|Puts(calls)|)
    ensures |vertices'| == |vertices| + 3 * |Puts(calls)|
    ensures vertices'[..|vertices|] == vertices
    ensures |indices| <= |indices'| && indices'[..|indices|] == indices
    ensures (|indices'| - |indices|) % 3 == 0
    ensures Honest(cache) ==> forall p :: |indices| <= p < |indices'| ==> indices'[p] < |Puts(calls)|
    ensures Tally(calls).cells == mc.size * ((mc.size - 1) * (mc.size - 1))
    ensures Tally(calls).rows == mc.size * (mc.size - 1) && Tally(calls).layers == mc.size
    ensures var g := SweptGrid(field, t, mc.size, cache, Positions, vertices, indices);
      vertices' == g.vertices && indices' == g.indices && calls == g.log
  {
    mc', vertices', indices', calls := ExtractImpl(mc, field, t, cache, Positions, vertices, indices);
  }

  /** Extracts a mesh with normals: per vertex its three position reals
      followed by the normal the source reports at that position. */
  method ExtractWithNormals(mc: MarchingCubes, field: Field, normal: (real, real, real) -> (real, real, real),
                            t: Tables, cache: Lookup, vertices: seq<real>, indices: seq<nat>)
    returns (mc': MarchingCubes, vertices': seq<real>, indices': seq<nat>, calls: seq<Call>)
    requires t.Valid() && mc.Valid() && mc.size >= 2
    ensures mc'.size == mc.size && mc'.Valid()
    ensures Puts(calls) == Range(|Puts(calls)|)
    ensures |vertices'| == |vertices| + 6 * |Puts(calls)|
    ensures vertices'[..|vertices|] == vertices
    ensures forall k :: 0 <= k < |Puts(calls)| ==>
      var o := |vertices| + 6 * k;
      (vertices'[o + 3], vertices'[o + 4], vertices'[o + 5]) == normal(vertices'[o], vertices'[o + 1], vertices'[o + 2])
    ensures |indices| <= |indices'| && indices'[..|indices|] == indices
    ensures (|indices'| - |indices|) % 3 == 0
    ensures Honest(cache) ==> forall p :: |indices| <= p < |indices'| ==> indices'[p] < |Puts(calls)|
    ensures Tally(calls).cells == mc.size * ((mc.size - 1) * (mc.size - 1))
    ensures Tally(calls).rows == mc.size * (mc.size - 1) && Tally(calls).layers == mc.size
    ensures var g := SweptGrid(field, t, mc.size, cache, WithNormals(normal), vertices, indices);
      vertices' == g.vertices && indices' == g.indices && calls == g.log
  {
    mc', vertices', indices', calls := ExtractImpl(mc, field, t, cache, WithNormals(normal), vertices, indices);
    forall k | 0 <= k < |Puts(calls)|
      ensures var o := |vertices| + 6 * k;
        (vertices'[o + 3], vertices'[o + 4], vertices'[o + 5]) == normal(vertices'[o], vertices'[o + 1], vertices'[o + 2])
    {
      assert NormalMatches(WithNormals(normal), vertices', |vertices|, k);
    }
  }
}

=== FILE: tables.dfy ===
/** The three static lookup tables marching cubes is driven by: the corner
    offsets of a unit cube, the pair of corners each of the twelve edges
    joins, and the 256-row triangle table. Their concrete contents are a
    fixed data asset that is not part of this model; only their shape is. */
module MarchingCubesTables {

  /** Offset of one cube corner from the cube's origin, one 0/1 per axis. */
  datatype Offset = Offset(dx: nat, dy: nat, dz: nat)

  /** The two corners (ids in [0,8)) joined by one cube edge. */
  datatype Edge = Edge(u: nat, v: nat)

  /** Number of triangle slots per row of the triangle table. */
  const MaxTriangles: nat := 5

  /** Length of one row of the triangle table (5 triangles of 3 edge ids, plus a trailing sentinel). */
  const RowLength: nat := 16

  /** Entry `j` of triangle slot `i` of a triangle-table row. */
  function Slot(row: seq<int>, i: nat, j: nat): int
    requires 3 * i + j < |row|
  {
    row[3 * i + j]
  }

  /** A triangle-table row: 16 entries, each a negative sentinel or an edge id
      below 12, and a triangle whose first entry is an edge id has edge ids in
      all three of its entries. */
  predicate RowValid(row: seq<int>) {
    && |row| == RowLength
    && (forall k :: 0 <= k < |row| ==> row[k] < 12)
    && (forall i :: 0 <= i < MaxTriangles && Slot(row, i, 0) >= 0 ==>
          Slot(row, i, 1) >= 0 && Slot(row, i, 2) >= 0)
  }

  datatype Tables = Tables(corners: seq<Offset>, edges: seq<Edge>, triangles: seq<seq<int>>)
  {
    /** The shape every conforming set of tables has. */
    predicate Valid() {
      && |corners| == 8
      && (forall i :: 0 <= i < |corners| ==> corners[i].dx <= 1 && corners[i].dy <= 1 && corners[i].dz <= 1)
      && |edges| == 12
      && (forall e :: 0 <= e < |edges| ==> edges[e].u < 8 && edges[e].v < 8)
      && |triangles| == 256
      && (forall c :: 0 <= c < |triangles| ==> RowValid(triangles[c]))
    }

    /** The topological convention that the all-outside and the all-inside
        cube carry no triangle at all. */
    predicate EmptyAtExtremes()
      requires Valid()
    {
      Slot(triangles[0], 0, 0) < 0 && Slot(triangles[255], 0, 0) < 0
    }
  }

  /** Number of triangles a row lists: the slots before the first one whose
      leading entry is negative, and never more than five. */
  function TriangleCount(row: seq<int>): (n: nat)
    requires |row| == RowLength
    ensures n <= MaxTriangles
    ensures forall i :: 0 <= i < n ==> Slot(row, i, 0) >= 0
    ensures n < MaxTriangles ==> Slot(row, n, 0) < 0
  {
    CountFrom(row, 0)
  }

  function CountFrom(row: seq<int>, i: nat): (n: nat)
    requires |row| == RowLength && i <= MaxTriangles
    requires forall k :: 0 <= k < i ==> Slot(row, k, 0) >= 0
    ensures i <= n <= MaxTriangles
    ensures forall k :: 0 <= k < n ==> Slot(row, k, 0) >= 0
    ensures n < MaxTriangles ==> Slot(row, n, 0) < 0
    decreases MaxTriangles - i
  {
    if i == MaxTriangles || Slot(row, i, 0) < 0 then i else CountFrom(row, i + 1)
  }

  /** The count is the only number with the "first negative slot" property,
      so any walk that stops at the first sentinel stops at TriangleCount. */
  lemma TriangleCountUnique(row: seq<int>, n: nat)
    requires |row| == RowLength && n <= MaxTriangles
    requires forall i :: 0 <= i < n ==> Slot(row, i, 0) >= 0
    requires n < MaxTriangles ==> Slot(row, n, 0) < 0
    ensures n == TriangleCount(row)
  {
  }
}
